=== FILE: README.md ===
# rust-fetch, modelled in Dafny

rust-fetch is an HTTP client for Node.js. The requests are made by a native module written in
Rust on top of reqwest, tokio and neon. JavaScript and TypeScript wrappers sit in front of it. A
Python script builds the native module for each platform.

This project models the core of each layer:

- **`TimeJars`** (`src/time_jar.rs`). The time-indexed cookie store. Each response that sets
  cookies is recorded under the instant it arrived. A caller later asks for everything recorded
  strictly after its own start instant. The store never serves cookies itself.
- **`NativeBuilder`** (`src/builder.rs`). The native client builder. Each JS-facing setting takes
  the configuration out of its handle, changes one field and hands it on in a new handle. It also
  holds the numeric log-level table and the configuration that `build` freezes.
- **`NativeClient`** (`src/client.rs`). The native request. It validates the JS arguments
  (method, headers, body, query), copies a response into a payload, and turns the payload back
  into a JS object.
- **`TsClient`** (`lib/index.ts`). The TypeScript client:
  - the builder calls its constructor makes, which depend on the options;
  - the options its `request` sends, including the cookie-jar and form-data rewrites;
  - how it writes the response's cookies back into the caller's jar.
- **`JsWrapper`** (`lib/index.js`). The older JavaScript wrapper: `Jar`, `Client` (argument
  defaults) and `Builder`.
- **`BuildScript`** (`build.py`). The build script's `main`:
  - option checks and deriving the target triple;
  - finding the built library;
  - the iOS duplicate-symbol scan;
  - the conversion of the static library into a dylib, with its exit statuses.

Shared modules:

- **`Js`** models JS values. An object is its list of own string-keyed properties in creation
  order. On top of that it defines property read, assignment, object spread, truthiness and `??`.
- **`Http`** models bytes, the visible-ASCII rule for header values, HTTP version names, and the
  UTF-8 codec a string body goes through.
- **`Wrappers`** holds `Option` and `Result`.

## Model

| member | source | states |
|---|---|---|
| `TimeJars.Insert` | src/time_jar.rs:49 | the ordered-map insertion; `InsertSorted`, `InsertLookup` and `InsertLatest` state what it does |
| `TimeJars.After` | src/time_jar.rs:28 | the range of entries after an instant; `AfterExactly`, `AfterChronological`, `AfterSuffix` and `AfterAppend` state what it holds |
| `TimeJars.InsertSorted` | src/time_jar.rs:49 | inserting into the ordered map keeps instants strictly increasing, and adds nothing but the new instant's entry |
| `TimeJars.InsertLookup` | src/time_jar.rs:49 | after insertion the instant maps to the new value and every other instant is unchanged; the map grows by one exactly when the instant was new |
| `TimeJars.InsertLatest` | src/time_jar.rs:49 | inserting an instant later than all recorded ones appends it at the end |
| `TimeJars.AfterExactly` | src/time_jar.rs:28 | an entry is in the range after `t` if and only if it is in the map and its instant is strictly later than `t` |
| `TimeJars.AfterChronological` | src/time_jar.rs:28 | the range after `t` comes out in increasing instant order |
| `TimeJars.AfterSuffix` | src/time_jar.rs:28 | the range after `t` is the suffix of the ordered map that starts at the first instant past `t` |
| `TimeJars.RecordObserved` | src/time_jar.rs:24-50 | a response recorded after a request started shows up, last, among the cookies since that start, after everything seen before |
| `TimeJars.AfterAppend` | src/time_jar.rs:28 | an entry later than `t` appended to the map is appended to the range after `t` |
| `TimeJars.NewResponseSeen` | src/time_jar.rs:24-50 | reading the cookies since `t` again after a response arrived later than `t` gives what was read before, followed by that response's cookies |
| `TimeJars.ToStrsRoundTrip` | src/time_jar.rs:47 | each header value kept as text encodes back to the header's bytes, so nothing is lost when a response's cookies are recorded |
| `TimeJars.ServeCookies` | src/time_jar.rs:53-55 | the store never supplies a Cookie header to outgoing requests |
| `TimeJars.TimeJar.constructor` | src/time_jar.rs:37-41 | a new store is empty, ordered and not poisoned |
| `TimeJars.TimeJar.CookiesSince` | src/time_jar.rs:24-33 | fails exactly when the lock is poisoned; otherwise returns the values of all entries strictly after `t`, oldest first |
| `TimeJars.TimeJar.SetCookies` | src/time_jar.rs:44-50 | succeeds exactly when the lock is not poisoned and every header value is visible ASCII; then it records (origin, values) at `now`; otherwise the lock ends up poisoned and the entries are unchanged |
| `NativeBuilder.CastU64` | src/builder.rs:62 | the float-to-integer cast (also at lines 96 and 128) truncates toward zero and saturates at 0 and at 2^64-1 |
| `NativeBuilder.RedirectPolicy` | src/builder.rs:104-107 | limit 0 means never follow redirects; any other limit follows that many |
| `NativeBuilder.LevelCode` | src/builder.rs:136-149 | every level filter has a code between 0 and 5 |
| `NativeBuilder.LevelFromCode` | src/builder.rs:136-149 | codes 0 to 5 select the level with that code; any larger code selects Info |
| `NativeBuilder.LevelRoundTrip` | src/builder.rs:136-149 | every level survives the round trip through its code |
| `NativeBuilder.NewInner` | src/builder.rs:24-29 | a fresh configuration has log level Info and the default client settings |
| `NativeBuilder.LogLevelEffect` | src/builder.rs:127-156 | the level follows the code table; connection-verbose logging is switched on exactly for code 5, i.e. for arguments in [5, 6); every other code leaves the client settings alone |
| `NativeBuilder.Apply` | src/builder.rs:52-156 | the configuration after one setting; `LogLevelEffect` and `OtherSettingsKeepLogLevel` state its effects, and each setter method's contract names it |
| `NativeBuilder.OtherSettingsKeepLogLevel` | src/builder.rs:52-125 | the non-log-level settings never change the log level, verbose logging or the stream window |
| `NativeBuilder.Frozen` | src/builder.rs:165 | a built client always has an initial HTTP/2 stream window of 1024 * 256 * 24 bytes |
| `NativeBuilder.Builder.constructor` | src/builder.rs:37-39 | a new handle holds a fresh configuration |
| `NativeBuilder.Builder.Containerize` | src/builder.rs:41-43 | a new handle holds the given configuration |
| `NativeBuilder.Builder.Step` | src/builder.rs:57-64 | the receiver is emptied; an already-empty receiver throws; otherwise a fresh handle holds the configuration with the setting applied |
| `NativeBuilder.Builder.ConnectTimeout` | src/builder.rs:52-65 | a non-number argument throws and leaves the handle intact; otherwise it behaves as Step with the connect timeout |
| `NativeBuilder.Builder.RequestTimeout` | src/builder.rs:67-80 | likewise, for the request timeout |
| `NativeBuilder.Builder.HttpsOnly` | src/builder.rs:82-93 | likewise, with a boolean argument, for HTTPS-only |
| `NativeBuilder.Builder.RedirectLimit` | src/builder.rs:95-112 | likewise, for the redirect policy |
| `NativeBuilder.Builder.Http2AdaptiveWindow` | src/builder.rs:114-125 | likewise, with a boolean argument, for the adaptive window |
| `NativeBuilder.Builder.LogLevel` | src/builder.rs:127-156 | likewise, for the log level |
| `NativeBuilder.Builder.Build` | src/builder.rs:158-176 | the handle is emptied; an empty handle throws; otherwise the result is the frozen configuration |
| `NativeBuilder.SecondUseFails` | src/builder.rs:57-59 | whatever the two settings, a handle used a second time throws, and stays empty |
| `NativeClient.MapJsObject` | src/client.rs:30-51 | succeeds exactly when every property value is a string; the map then holds exactly the object's properties; otherwise a type error |
| `NativeClient.MirrorsUnique` | src/client.rs:30-51 | an object determines the string map that mirrors it |
| `NativeClient.MapBody` | src/client.rs:56-70 | a string body becomes its UTF-8 bytes, which decode back to it; a buffer is taken as-is; anything else is a type error |
| `NativeClient.ObjectProps` | src/client.rs:165-168 | what the object downcast and `map_jsobject` read: an object's own properties; an empty buffer reads as an empty object; a non-empty buffer's index properties are not all strings; any other value, a function included, fails the downcast |
| `NativeClient.ReadStringObject` | src/client.rs:165-168 | succeeds exactly when the value downcasts to an object whose properties are all strings, the map then mirroring those properties; otherwise a type error |
| `NativeClient.ReadVerb` | src/client.rs:148-161 | succeeds exactly when url is a string, args an object, callback a function and `method` an accepted string, giving that verb; a type error for a wrong argument or a non-string method, InvalidMethod for an unknown one |
| `NativeClient.ReadHeaders` | src/client.rs:164-172 | succeeds exactly when the headers are an object of strings and the header-map conversion accepts them, giving the mirroring map; a type error when they are not strings, InvalidHeaders exactly when the conversion refuses them |
| `NativeClient.ReadOptions` | src/client.rs:164-182 | reads headers, body and query in that order; succeeds exactly when all three pass, giving their values; otherwise the first failing one decides the error |
| `NativeClient.JsRequest` | src/client.rs:147-183 | accepted exactly when url, args, callback, method, headers, body and query all have the required shapes and pass the method and header-map checks, an empty buffer counting as an empty headers or query object and a function being refused; the request then carries those values; otherwise the first failing check decides the error: a type error for a wrong url, args, callback, method, headers, body or query, InvalidMethod for an unknown method, and InvalidHeaders exactly when the string headers are refused as a header map |
| `NativeClient.FilterHeaders` | src/client.rs:83-88 | the header filter; `KeepVisible`, `FilterHeadersFaithful` and `FilterHeadersAppend` state what it keeps |
| `NativeClient.KeepVisible` | src/client.rs:86 | only visible-ASCII header values are kept |
| `NativeClient.FilterHeadersFaithful` | src/client.rs:83-88 | the filtered headers, re-encoded, are exactly the visible-ASCII headers in their original order |
| `NativeClient.FilterHeadersAppend` | src/client.rs:83-88 | filtering distributes over concatenation of header lists |
| `NativeClient.MapResponse` | src/client.rs:75-105 | an error passes through unchanged; a response keeps its status, version name, content length and text, plus the visible headers |
| `NativeClient.BuildHeaders` | src/client.rs:113-123 | the headers object has one key per header name, and each key holds the last value given for that name |
| `NativeClient.BuildRet` | src/client.rs:107-145 | the returned object has distinct keys; contentLength and data are present exactly when known; status, httpVersion and headers are always present with the payload's values |
| `TsClient.Candidate` | lib/index.ts:147-176 | each constructor step has its own fixed position |
| `TsClient.Planned` | lib/index.ts:147-176 | the reference list of builder calls for the options; `PlannedMembers` and `PlannedOrder` state what it holds |
| `TsClient.PlannedMembers` | lib/index.ts:147-176 | a call is made if and only if its step comes before the bound, it forwards the options' value, and its test passes |
| `TsClient.PlannedOrder` | lib/index.ts:147-176 | the calls come in the constructor's fixed order |
| `TsClient.ConstructorCalls` | lib/index.ts:144-179 | calls are in fixed order; each setting is called exactly when its option is truthy, or defined for the redirect limit, and forwards its own value; the log level (Info when absent or null) and `build` come last |
| `TsClient.NewClient` | lib/index.ts:144-179 | the constructor's calls are exactly the planned sequence |
| `TsClient.DefaultsFacts` | lib/index.ts:182-186 | the defaults are method GET, responseType text and 4 attempts, with no headers or body |
| `TsClient.RequestOptions` | lib/index.ts:182-199 | the built options satisfy `Prepared`: every key but headers and body is the caller's value, or the default when absent; a FormData body replaces headers and body with the form's; otherwise, with a cookie jar, the caller's headers plus a Cookie header from the jar; without one, the caller's headers |
| `TsClient.WritesExactly` | lib/index.ts:203-209 | in the writes (`Writes`, built from each origin's `Pairs`), a (cookie, origin) pair occurs if and only if the response lists that cookie under that origin |
| `TsClient.CookieJar.SetCookieSync` | lib/index.ts:206 | the jar records one write |
| `TsClient.WriteBack` | lib/index.ts:203-209 | the jar receives exactly the writes for the response's new cookies, origin by origin, in order |
| `TsClient.Request` | lib/index.ts:181-212 | the options handed to the native call are those `Prepared` describes; the request succeeds exactly when the native call answers; a jar then receives the writes for the new cookies; on failure it is untouched |
| `TsClient.NoQueryRejected` | lib/index.ts:182-187 | options that carry no `query`, because the caller gave none, are always rejected by the native request, which requires a query object (src/client.rs:179-182) |
| `JsWrapper.AddAllAppend` | lib/index.js:22-28 | adding two lists of cookies one after the other is adding their concatenation |
| `JsWrapper.Jar.constructor` | lib/index.js:18-20 | the wrapper holds the new native jar |
| `JsWrapper.Jar.AddCookieStr` | lib/index.js:30-34 | the native jar is replaced by the one with the cookie added, and the wrapper returns itself |
| `JsWrapper.Jar.UseToughJar` | lib/index.js:22-28 | every cookie of the tough-cookie jar for the URL is added, in order |
| `JsWrapper.Client.constructor` | lib/index.js:38-40 | the wrapper holds the native client |
| `JsWrapper.Client.Request` | lib/index.js:50-57 | method, headers, body and query are filled in with GET, {}, "" and {} where null or undefined; every other key is left alone; the caller's object is mutated and sent |
| `JsWrapper.Builder.constructor` | lib/index.js:61-63 | the wrapper holds the new native builder |
| `JsWrapper.Builder.SetJar` | lib/index.js:65-71 | the builder takes the jar's native handle, and the jar's handle is cleared |
| `JsWrapper.Builder.SetUserAgent` | lib/index.js:73-76 | the builder is replaced by the one with the user agent set |
| `JsWrapper.Builder.Build` | lib/index.js:78-84 | a new client wraps the built native client, and the builder's handle is cleared |
| `JsWrapper.Defaulted` | lib/index.js:51-54 | a value the caller gave (neither null nor undefined) is kept, as is any key without a default; a missing method, headers, body or query reads its default, so those four never read null or undefined |
| `JsWrapper.EmptyArgsAccepted` | lib/index.js:50-57 | a request made without arguments passes the native validation exactly when GET and the empty header map are accepted |
| `BuildScript.DropLeadingQuotes` | build.py:43 | removes exactly the leading run of double quotes |
| `BuildScript.DropTrailingQuotes` | build.py:43 | removes exactly the trailing run of double quotes |
| `BuildScript.StripQuotesSlice` | build.py:43 | stripping keeps the contiguous middle part, which neither starts nor ends with a quote and has only quotes around it |
| `BuildScript.Join` | build.py:83 | a joined path ends with its last component |
| `BuildScript.OutDir` | build.py:43 | the out-dir as written; `OmittedOutDirRaises` and `OutDirIntendedAgrees` state what it gives |
| `BuildScript.OutDirIntended` | build.py:43 | the corrected out-dir; `OutDirIntendedAgrees` states what it gives |
| `BuildScript.OmittedOutDirRaises` | build.py:43 | without `--out-dir` the script raises AttributeError |
| `BuildScript.OutDirIntendedAgrees` | build.py:43 | the corrected out-dir is never empty, is build/Release when omitted, and agrees with the script whenever the script succeeds |
| `BuildScript.CargoArch` | build.py:12-16 | exactly x64, ia32 and arm64 have a cargo architecture |
| `BuildScript.TargetSuffix` | build.py:18-23 | exactly mac, ios, win and linux have a target suffix |
| `BuildScript.CargoTriple` | build.py:45-61 | a triple exists exactly when the arch and os are known; CARGO_BUILD_TARGET overrides it |
| `BuildScript.TripleShape` | build.py:52-55 | without the override the triple starts with the arch's cargo name followed by the os suffix, and ends in -sim exactly for the arm64 iOS simulator |
| `BuildScript.TripleInjective` | build.py:52-55 | the triple determines the arch and the os |
| `BuildScript.DylibArch` | build.py:110-112 | aarch64 is renamed to arm64; every other architecture is kept |
| `BuildScript.DylibArchOfTable` | build.py:110-112 | for each table entry the dylib architecture is arm64 for arm64, else the cargo name |
| `BuildScript.LibFormats` | build.py:87 | there are four candidate library file names |
| `BuildScript.CandidateNames` | build.py:87-88 | the search tries rust_fetch.dll, librust_fetch.so, librust_fetch.dylib and librust_fetch.a under the release directory, in that order |
| `BuildScript.FindLibrary` | build.py:86-96 | a library is found exactly when some candidate exists; the path is then the first existing candidate; otherwise it is the last candidate |
| `BuildScript.OpenAt` | build.py:141 | finds the first ".a(" at or after a position that leaves room for a name and ".o)" |
| `BuildScript.SearchObject` | build.py:141 | matches exactly when the line ends in ".o)" after some ".a("; the captured object name ends in ".o" and the line ends with ".a(" + name + ")" |
| `BuildScript.ReportsExactly` | build.py:137-141 | an object name is collected from the linker output exactly when some duplicate-symbol line is followed by a line naming that object |
| `BuildScript.DuplicateObjects` | build.py:137-149 | the scan succeeds exactly on well-formed linker output; it then gives one object name per report, repeats included, in line order (so one `ar d` per report), and these are exactly the reported objects; otherwise the first report without an object name decides: IndexError exactly when it is the last line, TypeError when the next line does not match |
| `BuildScript.ConversionResult` | build.py:151-162 | what `main` returns after the conversion, as written; `FailedConversionExitsZero` states its effect |
| `BuildScript.FailedConversionExitsZero` | build.py:151-157 | every failed dylib conversion, whether the linker failed or wrote no file, ends the process with exit status 0 |
| `BuildScript.ConversionIntendedStatus` | build.py:151-162 | with the corrected result the status is 0 exactly when the dylib was produced, and it agrees with the script on success |
| `BuildScript.MainBody` | build.py:45-162 | an unknown arch or os, a cargo failure or no built library returns 1; a non-iOS build with a library returns 0; an iOS build returns the conversion's result when every duplicate-symbol report names an object, and otherwise raises IndexError when the first report without one is the last line, TypeError if not |
| `BuildScript.RunAsWritten` | build.py:43-162 | `main` as written: without `--out-dir` it raises AttributeError before any check; otherwise it ends as `MainBody` says, a failed conversion returning `None` |
| `BuildScript.Run` | build.py:43-162 | `main` with both corrections: the out-dir default applies, and it ends as `MainBody` says with a failed conversion returning 1 |
| `BuildScript.RunSucceedsExactly` | build.py:45-162 | with the corrections, `main` exits 0 exactly when the arch and os are known, cargo succeeds, a library was built and, for iOS, the dylib was produced |
| `Js.Set` | lib/index.ts:192 | assignment adds the key, growing the object only when the key is new |
| `Js.SetDistinct` | lib/index.ts:192 | assignment never duplicates a key |
| `Js.GetSet` | lib/index.ts:192 | after assignment the key reads the new value and every other key reads as before |
| `Js.GetAppend` | src/client.rs:125-142 | reading a concatenation finds the first part's value first |
| `Js.DistinctAppend` | src/client.rs:125-142 | concatenating objects with disjoint keys keeps keys distinct |
| `Js.SetFresh` | src/client.rs:128 | assigning a new key appends it |
| `Js.GetSpread` | lib/index.ts:182-187 | a spread object reads the source's keys from the source and every other key from the target |
| `Js.Assign` | lib/index.ts:192 | the assignment statement: the key reads the value, the others are unchanged, and keys stay distinct |
| `Js.SpreadCopy` | lib/index.ts:182-187 | the spread expression, with the same reading rule |
| `Js.Coalesce` | lib/index.js:51-54 | `??` gives the right side exactly when the left side is null or undefined; `JsWrapper.Defaulted` states what the four defaults built from it read |
| `Http.ToStr` | src/client.rs:86-87 | a visible-ASCII value becomes the string with the same characters; `Http.ToStrEncode` proves that the text encodes back to the same bytes |
| `Http.VersionName` | src/client.rs:81 | every version prints as an eight-character name starting with "HTTP/" |
| `Http.VersionNameInjective` | src/client.rs:81 | different versions print differently |
| `Http.EncodeChar` | src/client.rs:58-60 | a character takes 1 to 4 bytes, one exactly when it is ASCII |
| `Http.Encode` | src/client.rs:58-60 | a string takes between 1 and 4 bytes per character |
| `Http.DecodeEncode` | src/client.rs:58-60 | decoding the UTF-8 encoding of a string gives the string back |
| `Http.ToStrEncode` | src/client.rs:86-87 | a visible-ASCII header value encodes back to the same bytes |

## Left out

- Network, runtime and threads: sending the request, the tokio runtime, the neon channel and the callback invocation (src/client.rs:185-210). The model stops at the request handed to the runtime, and at the payload and the object built from it.
- The process-wide logger initialisation (src/builder.rs:153) and reqwest's own validation inside `build().unwrap()` (src/builder.rs:167).
- NaN arguments and ia32 (32-bit `usize`): numbers are reals, and casts saturate at 64 bits.
- JS objects: integer-like keys, which JS orders first, and lone UTF-16 surrogates in strings are not modelled.
- `Method::from_str`, the HeaderMap conversion, form-data's `getHeaders`/`getBuffer`, tough-cookie's `getCookieStringSync`/`getCookiesSync`/`setCookieSync` and the native functions called from lib/index.js are parameters: values or total functions. A null native handle, which throws on the native side, is therefore not modelled.
- TsClient.Request: tough-cookie's `setCookieSync` (lib/index.ts:206) is taken to accept every cookie. A cookie it cannot parse, or whose domain does not match the origin, makes it throw partway through the write-back loop. The source then keeps the writes made so far and rejects the promise although the native call answered. The model does not capture that, so `ok` is exactly "a response arrived" and the jar always receives all of `Writes`.
- TimeJars.TimeJar.SetCookies: the origin is a parameter; the source computes it from the response URL with `url.origin().ascii_serialization()` (src/time_jar.rs:49), and URL parsing and origin serialisation are not part of this model.
- JsWrapper.Client.Request: `args == null` stands for an omitted argument, which the default `= {}` replaces. An explicit `null` or a primitive argument, for which `args.method` throws or the assignments are lost (lib/index.js:51-54), is not modelled.
- TsClient.Request: a transport error is not modelled. At src/client.rs:195 it throws inside the channel closure, so the callback at src/client.rs:206 is never called and the promise from lib/index.ts:201 never settles. The model's failure case covers only a native call that rejects its arguments.
- JsWrapper.EmptyArgsAccepted: it assumes the `clientRequest` of lib/index.js is the native `js_request`. lib/index.js:13 loads `../index.node`, while build.py:98 writes `rf.node`, and src/lib.rs exports no `jarNew`, `builderJar` or `builderUserAgent`; the model takes the native functions lib/index.js calls as given.
- NativeClient.JsRequest: an unknown method panics in the source (`unwrap`, src/client.rs:161); the model reports it as a distinct failure.
- `js_proxy`, `js_strip_sensitive_headers` and the cookie jar of src/jar.rs are not part of this model. The TypeScript client only forwards those options, and `TsClient.ConstructorCalls` states which calls are made.
- TsClient.RequestOptions: a string value for `headers` is spread as characters in JS; the model treats every non-object as having no own properties.
- TsClient.Request: how the native response's `newCookies` is produced is not part of this model; it is an input. When the response has none, `Object.entries` throws in the source; the model does not capture that path. Retries, `responseType` and `attempts` are only forwarded.
- lib/index.ts and src/client.rs disagree. The TypeScript client sends no `query` unless the caller gives one, and the native request shown requires one (`TsClient.NoQueryRejected`). The native result carries `status`/`data`, while the TypeScript types read `statusCode`/`body`/`newCookies`. The model follows each file as written.
- `NativeClient.BuildHeaders` keeps the last value of a repeated header, as the code does; tests/client.test.js:79 expects a list.
- `NativeClient.MapJsObject`: property names from `get_own_property_names` are always strings, so the failing name downcast (src/client.rs:39) is not modelled.
- BuildScript: printing, option parsing, `shlex` on Windows, environment copying, subprocesses, `shutil.copy`, `xcrun` and the file system are inputs (`Options`, `World`). Paths are joined with `/` only. The `ar d` deletions are reduced to the list of object names, one per report; the script ignores their failures (build.py:146-149). `out_dir` is computed but never used afterwards (build.py:43), so the model computes it only.
- BuildScript.Run: it is `main` with the two corrections listed under "Findings"; `BuildScript.RunAsWritten` is `main` as written. Both assume that `xcrun` (build.py:107-108), the `str(e.output)` fallback (build.py:134) and `shutil.copy` (build.py:160) never raise, so the only exceptions they model are the AttributeError at build.py:43 and the ones from the duplicate-symbol scan.
- BuildScript.Run: the branch that adds a static-CRT flag to `RUSTFLAGS` (build.py:69-70) is never taken, because it compares the `os` module with `'win'`; the model leaves it out.

## Findings

| source | as written | input that shows it | evidently intended | confidence | as-written member | corrected member |
|---|---|---|---|---|---|---|
| build.py:43 | `options.out_dir.strip('"')` is called even when `--out-dir` was not given, so the value is `None` | running the script without `--out-dir` raises AttributeError before the `or` default can apply | fall back to build/Release when the option is omitted | high, not executed | `BuildScript.OutDir`, `BuildScript.OmittedOutDirRaises`, `BuildScript.RunAsWritten` | `BuildScript.OutDirIntended`, `BuildScript.OutDirIntendedAgrees`, `BuildScript.Run` |
| build.py:157 | a failed dylib conversion runs a bare `return`, so `main` returns `None` and `sys.exit(None)` exits 0 | iOS build where the second linker run exits 1 | exit status 1, like the other error paths | high, not executed | `BuildScript.ConversionResult`, `BuildScript.FailedConversionExitsZero`, `BuildScript.RunAsWritten` | `BuildScript.ConversionResultIntended`, `BuildScript.ConversionIntendedStatus`, `BuildScript.Run`, `BuildScript.RunSucceedsExactly` |

=== FILE: build_script.dfy ===
/**
 * The build script: validates the requested architecture and operating
 * system against its two tables, derives the cargo target triple, looks for
 * the built library in format order, and for iOS reads the linker's
 * "duplicate symbol" report into object-file names before turning the static
 * library into a dynamic one. Running cargo, the linker and `ar`, copying
 * files and the process environment are inputs of this model.
 */
module BuildScript {
  import opened Wrappers

  /** Python exceptions the script can raise. */
  datatype PyError = AttributeError | IndexError | TypeError

  const LibName: string := "rust_fetch"

  // ------------------------------------------------------------- strings

  predicate StartsWith(s: string, prefix: string) {
    |prefix| <= |s| && s[..|prefix|] == prefix
  }

  predicate EndsWith(s: string, suffix: string) {
    |suffix| <= |s| && s[|s| - |suffix|..] == suffix
  }

  /** `t in s` for strings. */
  predicate Contains(s: string, t: string) {
    StartsWith(s, t) || (s != [] && Contains(s[1..], t))
  }

  /** `s.lstrip('"')`. */
  function DropLeadingQuotes(s: string): (r: string)
    ensures |r| <= |s| && r == s[|s| - |r|..]
    ensures r == [] || r[0] != '"'
    ensures forall i :: 0 <= i < |s| - |r| ==> s[i] == '"'
  {
    if s != [] && s[0] == '"' then DropLeadingQuotes(s[1..]) else s
  }

  /** `s.rstrip('"')`. */
  function DropTrailingQuotes(s: string): (r: string)
    ensures |r| <= |s| && r == s[..|r|]
    ensures r == [] || r[|r| - 1] != '"'
    ensures forall i :: |r| <= i < |s| ==> s[i] == '"'
  {
    if s != [] && s[|s| - 1] == '"' then DropTrailingQuotes(s[..|s| - 1]) else s
  }

  /** `s.strip('"')`. */
  function StripQuotes(s: string): string {
    DropTrailingQuotes(DropLeadingQuotes(s))
  }

  /** Stripping keeps the part of `s` between its leading and its trailing double quotes: a
      contiguous slice that neither starts nor ends with a quote, with only quotes around it. */
  lemma StripQuotesSlice(s: string)
    ensures var r := StripQuotes(s);
      && (r == [] || (r[0] != '"' && r[|r| - 1] != '"'))
      && exists lo :: 0 <= lo <= |s| - |r| && r == s[lo..][..|r|]
           && (forall i :: 0 <= i < lo ==> s[i] == '"')
           && (forall i :: lo + |r| <= i < |s| ==> s[i] == '"')
  {
    var left := DropLeadingQuotes(s);
    var lo := |s| - |left|;
    var r := DropTrailingQuotes(left);
    assert left == s[lo..];
    forall i | lo + |r| <= i < |s| ensures s[i] == '"' {
      assert s[i] == left[i - lo];
    }
    assert r == s[lo..][..|r|];
  }

  /** `os.path.join(a, b)` on POSIX. */
  function Join(a: string, b: string): (r: string)
    ensures EndsWith(r, b)
  {
    if StartsWith(b, "/") then b
    else if a == "" || EndsWith(a, "/") then a + b
    else a + "/" + b
  }

  // ------------------------------------------------------------- out-dir

  /** Line 43 as written: `--out-dir` defaults to `None`, and `None.strip` raises before the `or`
      default can apply; a given value loses its surrounding quotes, and an empty result falls
      back to `build/Release`. */
  function OutDir(outDir: Option<string>): Result<string, PyError> {
    match outDir
    case None => Failure(AttributeError)
    case Some(s) => if StripQuotes(s) == "" then Success(Join("build", "Release")) else Success(StripQuotes(s))
  }

  /** Running the script without `--out-dir` raises. */
  lemma OmittedOutDirRaises()
    ensures OutDir(None) == Failure(AttributeError)
  {
  }

  /** Line 43 as evidently intended: an omitted or empty directory means `build/Release`. */
  function OutDirIntended(outDir: Option<string>): string {
    var given := if outDir.Some? then StripQuotes(outDir.value) else "";
    if given == "" then Join("build", "Release") else given
  }

  /** The intended out-dir is never empty, is `build/Release` when omitted, and agrees with the
      script wherever the script does not raise. */
  lemma OutDirIntendedAgrees(outDir: Option<string>)
    ensures OutDirIntended(outDir) != ""
    ensures outDir.None? ==> OutDirIntended(outDir) == "build/Release"
    ensures OutDir(outDir).Success? ==> OutDir(outDir).value == OutDirIntended(outDir)
  {
    assert "Release"[..1][0] == 'R' && "build"[4..][0] == 'd';
    assert Join("build", "Release") == "build/Release";
  }

  // ------------------------------------------------------------- target triple

  /** `cargo_archs`: node architecture name to cargo architecture. */
  function CargoArch(arch: string): (r: Option<string>)
    ensures r.Some? <==> arch in {"x64", "ia32", "arm64"}
  {
    if arch == "x64" then Some("x86_64")
    else if arch == "ia32" then Some("i686")
    else if arch == "arm64" then Some("aarch64")
    else None
  }

  /** `cargo_target_suffix`: operating system to target-triple suffix. */
  function TargetSuffix(os: string): (r: Option<string>)
    ensures r.Some? <==> os in {"mac", "ios", "win", "linux"}
  {
    if os == "mac" then Some("-apple-darwin")
    else if os == "ios" then Some("-apple-ios")
    else if os == "win" then Some("-pc-windows-msvc")
    else if os == "linux" then Some("-unknown-linux-gnu")
    else None
  }

  /** The `--arch` option names an architecture of the table (an omitted option does not). */
  predicate ValidArch(arch: Option<string>) {
    arch.Some? && CargoArch(arch.value).Some?
  }

  predicate ValidOs(os: Option<string>) {
    os.Some? && TargetSuffix(os.value).Some?
  }

  /** The simulator suffix applies to arm64 iOS builds with `--simulator 1` only. */
  predicate Simulator(arch: string, os: string, simulator: string) {
    os == "ios" && arch == "arm64" && simulator == "1"
  }

  /** The triple handed to cargo: `None` when the architecture or the system is not in its table
      (the script then returns 1); otherwise `CARGO_BUILD_TARGET` from the environment when set,
      and else the table entries joined, with `-sim` for the iOS simulator. */
  function CargoTriple(arch: Option<string>, os: Option<string>, simulator: string, envTarget: Option<string>)
    : (r: Option<string>)
    ensures r.Some? <==> ValidArch(arch) && ValidOs(os)
    ensures r.Some? && envTarget.Some? ==> r.value == envTarget.value
  {
    if !ValidArch(arch) || !ValidOs(os) then None
    else
      var triple := CargoArch(arch.value).value + TargetSuffix(os.value).value;
      var triple := if Simulator(arch.value, os.value, simulator) then triple + "-sim" else triple;
      if envTarget.Some? then Some(envTarget.value) else Some(triple)
  }

  /** Without an override the triple is the architecture's cargo name followed by the system's
      suffix, and ends in `-sim` exactly for the arm64 iOS simulator. */
  lemma TripleShape(arch: string, os: string, simulator: string)
    requires CargoArch(arch).Some? && TargetSuffix(os).Some?
    ensures var t := CargoTriple(Some(arch), Some(os), simulator, None).value;
      && StartsWith(t, CargoArch(arch).value + TargetSuffix(os).value)
      && (EndsWith(t, "-sim") <==> Simulator(arch, os, simulator))
  {
    var base := CargoArch(arch).value + TargetSuffix(os).value;
    var t := TripleOf(arch, os, simulator);
    assert t[..|base|] == base;
    if !Simulator(arch, os, simulator) {
      SuffixNotSim(CargoArch(arch).value, os);
      assert t == base;
    }
  }

  /** The triple without an override, spelled out. */
  lemma TripleOf(arch: string, os: string, simulator: string) returns (t: string)
    requires CargoArch(arch).Some? && TargetSuffix(os).Some?
    ensures CargoTriple(Some(arch), Some(os), simulator, None) == Some(t)
    ensures t == CargoArch(arch).value + TargetSuffix(os).value + (if Simulator(arch, os, simulator) then "-sim" else "")
  {
    t := CargoArch(arch).value + TargetSuffix(os).value + (if Simulator(arch, os, simulator) then "-sim" else "");
    if !Simulator(arch, os, simulator) {
      assert t == CargoArch(arch).value + TargetSuffix(os).value;
    }
  }

  /** No system suffix ends in `-sim`, whatever precedes it. */
  lemma SuffixNotSim(c: string, os: string)
    requires TargetSuffix(os).Some?
    ensures !EndsWith(c + TargetSuffix(os).value, "-sim")
  {
    var u := TargetSuffix(os).value;
    var w := c + u;
    assert w[|w| - 1] == u[|u| - 1] != 'm';
    assert w[|w| - 4..][3] != "-sim"[3];
  }

  /** Different table entries give different triples: the triple determines the architecture
      and the system. */
  lemma TripleInjective(a1: string, o1: string, a2: string, o2: string, simulator: string)
    requires CargoArch(a1).Some? && TargetSuffix(o1).Some? && CargoArch(a2).Some? && TargetSuffix(o2).Some?
    requires CargoTriple(Some(a1), Some(o1), simulator, None) == CargoTriple(Some(a2), Some(o2), simulator, None)
    ensures a1 == a2 && o1 == o2
  {
    var t1 := TripleOf(a1, o1, simulator);
    var t2 := TripleOf(a2, o2, simulator);
    var c1, c2 := CargoArch(a1).value, CargoArch(a2).value;
    var u1, u2 := TargetSuffix(o1).value, TargetSuffix(o2).value;
    assert t1[0] == c1[0] && t2[0] == c2[0];
    ArchByInitial(a1, a2);
    var n := |c1|;
    assert t1[n + 2] == u1[2] && t2[n + 2] == u2[2];
    assert t1[n + 7] == u1[7] && t2[n + 7] == u2[7];
    SuffixByLetters(o1, o2);
  }

  /** The cargo architectures differ in their first letter. */
  lemma ArchByInitial(a1: string, a2: string)
    requires CargoArch(a1).Some? && CargoArch(a2).Some?
    requires CargoArch(a1).value[0] == CargoArch(a2).value[0]
    ensures a1 == a2
  {
  }

  /** The suffixes differ in their third or eighth letter. */
  lemma SuffixByLetters(o1: string, o2: string)
    requires TargetSuffix(o1).Some? && TargetSuffix(o2).Some?
    requires TargetSuffix(o1).value[2] == TargetSuffix(o2).value[2]
    requires TargetSuffix(o1).value[7] == TargetSuffix(o2).value[7]
    ensures o1 == o2
  {
  }

  /** The architecture the iOS linker is given: cargo's `aarch64` is `arm64` to it. */
  function DylibArch(cargoArch: string): (r: string)
    ensures cargoArch == "aarch64" <==> r == "arm64" && r != cargoArch
    ensures cargoArch != "aarch64" ==> r == cargoArch
  {
    if cargoArch == "aarch64" then "arm64" else cargoArch
  }

  /** For every architecture of the table, the linker name is the node name for arm64 and the
      cargo name otherwise. */
  lemma DylibArchOfTable(arch: string)
    requires CargoArch(arch).Some?
    ensures DylibArch(CargoArch(arch).value) == if arch == "arm64" then arch else CargoArch(arch).value
  {
  }

  // ------------------------------------------------------------- library search

  /** The library file names tried, in order. */
  function LibFormats(name: string): (fs: seq<string>)
    ensures |fs| == 4
  {
    [name + ".dll", "lib" + name + ".so", "lib" + name + ".dylib", "lib" + name + ".a"]
  }

  /** The search loop: tries each format in order under `rustDir` and stops at the first path in
      `existing`. When none exists, `srcPath` is the last path tried. */
  method FindLibrary(rustDir: string, existing: set<string>) returns (found: bool, srcPath: string)
    ensures found <==> exists i :: 0 <= i < 4 && Join(rustDir, LibFormats(LibName)[i]) in existing
    ensures found ==> srcPath in existing
    ensures found ==> exists i :: 0 <= i < 4 && srcPath == Join(rustDir, LibFormats(LibName)[i])
                                  && (forall j :: 0 <= j < i ==> Join(rustDir, LibFormats(LibName)[j]) !in existing)
    ensures !found ==> srcPath == Join(rustDir, LibFormats(LibName)[3])
  {
    var paths := Candidates(rustDir);
    found := false;
    srcPath := "";
    var i := 0;
    while i < |paths|
      invariant 0 <= i <= |paths|
      invariant forall j :: 0 <= j < i ==> paths[j] !in existing
      invariant i > 0 ==> srcPath == paths[i - 1]
    {
      srcPath := paths[i];
      if srcPath in existing {
        found := true;
        assert srcPath == Join(rustDir, LibFormats(LibName)[i]);
        return;
      }
      i := i + 1;
    }
  }

  /** The paths the search tries, in order. */
  function Candidates(rustDir: string): (ps: seq<string>)
    ensures |ps| == 4 && forall i :: 0 <= i < 4 ==> ps[i] == Join(rustDir, LibFormats(LibName)[i])
  {
    var fs := LibFormats(LibName);
    [Join(rustDir, fs[0]), Join(rustDir, fs[1]), Join(rustDir, fs[2]), Join(rustDir, fs[3])]
  }

  /** The four file names tried, spelled out in the script's order. */
  lemma CandidateNames(rustDir: string)
    ensures Candidates(rustDir) == [Join(rustDir, "rust_fetch.dll"), Join(rustDir, "librust_fetch.so"),
                                    Join(rustDir, "librust_fetch.dylib"), Join(rustDir, "librust_fetch.a")]
  {
    var fs := LibFormats(LibName);
    assert fs[0] == "rust_fetch.dll" by { assert forall j :: 0 <= j < |fs[0]| ==> fs[0][j] == "rust_fetch.dll"[j]; }
    assert fs[1] == "librust_fetch.so" by { assert forall j :: 0 <= j < |fs[1]| ==> fs[1][j] == "librust_fetch.so"[j]; }
    assert fs[2] == "librust_fetch.dylib" by { assert forall j :: 0 <= j < |fs[2]| ==> fs[2][j] == "librust_fetch.dylib"[j]; }
    assert fs[3] == "librust_fetch.a" by { assert forall j :: 0 <= j < |fs[3]| ==> fs[3][j] == "librust_fetch.a"[j]; }
  }

  // ------------------------------------------------------------- duplicate-symbol report

  predicate IsDuplicateReport(line: string) {
    StartsWith(line, "duplicate symbol")
  }

  /** `.a(` starts at `q`. */
  predicate OpensAt(line: string, q: nat) {
    q + 3 <= |line| && line[q..q + 3] == ".a("
  }

  /** The first position at or after `p` where `.a(` opens a group that can still be followed by
      at least one character, `.o` and the final `)`. */
  function OpenAt(line: string, p: nat): (r: Option<nat>)
    decreases |line| - p
    ensures r.Some? ==> p <= r.value && r.value + 7 <= |line| && OpensAt(line, r.value)
    ensures r.Some? ==> forall q :: p <= q < r.value ==> !OpensAt(line, q)
    ensures r.None? ==> forall q :: p <= q && q + 7 <= |line| ==> !OpensAt(line, q)
  {
    if p + 7 > |line| then None
    else if OpensAt(line, p) then Some(p)
    else OpenAt(line, p + 1)
  }

  /** `re.search(r"\.a\((.+\.o)\)$", line)` and its group 1: the match starts at the leftmost
      `.a(` and, the group being greedy and anchored, runs to the `.o)` that ends the line. */
  function SearchObject(line: string): (r: Option<string>)
    ensures r.Some? <==> EndsWith(line, ".o)") && exists p: nat :: p + 7 <= |line| && OpensAt(line, p)
    ensures r.Some? ==> |r.value| >= 3 && EndsWith(r.value, ".o") && EndsWith(line, ".a(" + r.value + ")")
  {
    if !EndsWith(line, ".o)") then None
    else match OpenAt(line, 0)
      case None => None
      case Some(p) =>
        var f := line[p + 3..|line| - 1];
        assert line[|line| - (|f| + 4)..] == ".a(" + f + ")";
        Some(f)
  }

  /** The object named by a duplicate-symbol report, its line ending in `.a(NAME.o)`. */
  ghost predicate Reported(lines: seq<string>, name: string) {
    exists i :: 0 <= i < |lines| - 1 && IsDuplicateReport(lines[i]) && SearchObject(lines[i + 1]) == Some(name)
  }

  /** Every duplicate-symbol report is followed by a line naming an object. */
  ghost predicate WellFormedReport(lines: seq<string>) {
    forall i :: 0 <= i < |lines| && IsDuplicateReport(lines[i]) ==>
      i + 1 < |lines| && SearchObject(lines[i + 1]).Some?
  }

  /** Every report before `idx` is followed by a line naming an object. */
  ghost predicate WellFormedBefore(lines: seq<string>, idx: nat) {
    forall i :: 0 <= i < idx && i < |lines| && IsDuplicateReport(lines[i]) ==>
      i + 1 < |lines| && SearchObject(lines[i + 1]).Some?
  }

  /** The first report without an object name is on the last line, so nothing follows it. */
  ghost predicate ReportCutShort(lines: seq<string>) {
    |lines| > 0 && IsDuplicateReport(lines[|lines| - 1]) && WellFormedBefore(lines, |lines| - 1)
  }

  /** The object named after line `i` when line `i` is a duplicate-symbol report. */
  function ReportName(lines: seq<string>, i: nat): Option<string> {
    if i + 1 < |lines| && IsDuplicateReport(lines[i]) then SearchObject(lines[i + 1]) else None
  }

  /** For each line, the object it reports, if any. */
  function Reports(lines: seq<string>): seq<Option<string>> {
    seq(|lines|, i requires 0 <= i < |lines| => ReportName(lines, i))
  }

  /** The names present in `rs`: one per `Some`, repeats included, in order. */
  function Somes(rs: seq<Option<string>>): seq<string> {
    if rs == [] then []
    else
      var init := Somes(rs[..|rs| - 1]);
      if rs[|rs| - 1].Some? then init + [rs[|rs| - 1].value] else init
  }

  /** A name is collected exactly when some element of `rs` holds it. */
  lemma {:induction false} SomesExactly(rs: seq<Option<string>>, name: string)
    ensures name in Somes(rs) <==> exists i :: 0 <= i < |rs| && rs[i] == Some(name)
  {
    if rs != [] {
      var init := rs[..|rs| - 1];
      SomesExactly(init, name);
      if exists i :: 0 <= i < |rs| && rs[i] == Some(name) {
        var i :| 0 <= i < |rs| && rs[i] == Some(name);
        if i < |init| {
          assert init[i] == rs[i];
        }
      }
      if exists i :: 0 <= i < |init| && init[i] == Some(name) {
        var i :| 0 <= i < |init| && init[i] == Some(name);
        assert rs[i] == init[i];
      }
    }
  }

  /** The reported names are exactly the objects the linker output reports. */
  lemma ReportsExactly(lines: seq<string>, name: string)
    ensures name in Somes(Reports(lines)) <==> Reported(lines, name)
  {
    var rs := Reports(lines);
    SomesExactly(rs, name);
    if Reported(lines, name) {
      var i :| 0 <= i < |lines| - 1 && IsDuplicateReport(lines[i]) && SearchObject(lines[i + 1]) == Some(name);
      assert rs[i] == Some(name);
    }
    if exists i :: 0 <= i < |rs| && rs[i] == Some(name) {
      var i :| 0 <= i < |rs| && rs[i] == Some(name);
      assert ReportName(lines, i) == Some(name);
    }
  }

  /** The scan of the linker output: for each duplicate-symbol line, the object name from the next
      line. A report on the last line raises `IndexError`; a next line without an object name makes
      the subscript of `None` raise `TypeError`. */
  method DuplicateObjects(lines: seq<string>) returns (r: Result<seq<string>, PyError>)
    ensures r.Success? <==> WellFormedReport(lines)
    ensures r.Success? ==> r.value == Somes(Reports(lines))
    ensures r.Success? ==> forall name :: name in r.value <==> Reported(lines, name)
    ensures r.Failure? ==> r.error == IndexError || r.error == TypeError
    ensures r == Failure(IndexError) <==> ReportCutShort(lines)
  {
    ghost var rs := Reports(lines);
    var names: seq<string> := [];
    var idx := 0;
    while idx < |lines|
      invariant 0 <= idx <= |lines|
      invariant WellFormedBefore(lines, idx)
      invariant names == Somes(rs[..idx])
    {
      assert rs[..idx + 1][..idx] == rs[..idx];
      assert rs[..idx + 1][idx] == ReportName(lines, idx);
      if !IsDuplicateReport(lines[idx]) {
        idx := idx + 1;
        continue;
      }
      if idx + 1 >= |lines| {
        return Failure(IndexError);
      }
      var m := SearchObject(lines[idx + 1]);
      if m.None? {
        return Failure(TypeError);
      }
      names := names + [m.value];
      idx := idx + 1;
    }
    assert rs[..idx] == rs;
    forall name ensures name in names <==> Reported(lines, name) {
      ReportsExactly(lines, name);
    }
    return Success(names);
  }

  // ------------------------------------------------------------- dylib conversion status

  /** Lines 151-157 and 162 as written: a failed conversion ends `main` with a bare `return`, so
      `sys.exit` receives `None`; success falls through to `return 0`. */
  function ConversionResult(linkerStatus: int, dylibWritten: bool): Option<int> {
    if linkerStatus != 0 || !dylibWritten then None else Some(0)
  }

  /** The status `sys.exit` gives the process for what `main` returned. */
  function ExitStatus(returned: Option<int>): int {
    if returned.None? then 0 else returned.value
  }

  /** A failed conversion still exits with status 0. */
  lemma FailedConversionExitsZero(linkerStatus: int, dylibWritten: bool)
    requires linkerStatus != 0 || !dylibWritten
    ensures ExitStatus(ConversionResult(linkerStatus, dylibWritten)) == 0
  {
  }

  /** The conversion result as evidently intended: failure returns 1, like every other error. */
  function ConversionResultIntended(linkerStatus: int, dylibWritten: bool): Option<int> {
    if linkerStatus != 0 || !dylibWritten then Some(1) else Some(0)
  }

  /** With the intended result the exit status is 0 exactly when the dylib was produced, and it
      agrees with the script on success. */
  lemma ConversionIntendedStatus(linkerStatus: int, dylibWritten: bool)
    ensures (ExitStatus(ConversionResultIntended(linkerStatus, dylibWritten)) == 0)
              <==> (linkerStatus == 0 && dylibWritten)
    ensures linkerStatus == 0 && dylibWritten ==>
              ConversionResultIntended(linkerStatus, dylibWritten) == ConversionResult(linkerStatus, dylibWritten)
  {
  }

  // ------------------------------------------------------------- main

  /** The command line: `--os`, `--arch`, `--simulator` (default "0"), `--out-dir` and
      `--cargo-build-dir` (default "target"). */
  datatype Options = Options(os: Option<string>, arch: Option<string>, simulator: string,
                             outDir: Option<string>, cargoBuildDir: string)

  /** What the script observes of the outside world: `CARGO_BUILD_TARGET`, cargo's exit status, the
      files that exist after the build, the first linker run's output lines, the second linker
      run's exit status and whether it wrote the output file. */
  datatype World = World(buildTarget: Option<string>, cargoStatus: int, existing: set<string>,
                         linkerOutput: seq<string>, linkerStatus: int, dylibWritten: bool)

  /** How `main` ends: with what it returned (`None` for a bare `return`), or with an exception. */
  datatype Outcome = Returned(value: Option<int>) | Raised(error: PyError)

  /** One of the four candidate files exists under `rustDir`. */
  ghost predicate LibraryBuilt(rustDir: string, existing: set<string>) {
    exists i :: 0 <= i < 4 && Join(rustDir, LibFormats(LibName)[i]) in existing
  }

  /** How lines 45-162 of `main` end, given what a failed or successful dylib conversion returns:
      1 for a bad arch or os, a cargo failure or no library; 0 after copying a non-iOS library; for
      iOS, the conversion's result, or, when the linker output has a report without an object name,
      an IndexError if the first such report is the last line and a TypeError otherwise. */
  ghost predicate MainEnds(opts: Options, world: World, converted: Option<int>, outcome: Outcome) {
    if !ValidArch(opts.arch) || !ValidOs(opts.os) then outcome == Returned(Some(1))
    else
      var triple := CargoTriple(opts.arch, opts.os, opts.simulator, world.buildTarget).value;
      if world.cargoStatus != 0 then outcome == Returned(Some(1))
      else if !LibraryBuilt(Join(Join(opts.cargoBuildDir, triple), "release"), world.existing) then
        outcome == Returned(Some(1))
      else if !Contains(triple, "apple-ios") then outcome == Returned(Some(0))
      else if WellFormedReport(world.linkerOutput) then outcome == Returned(converted)
      else outcome == Raised(if ReportCutShort(world.linkerOutput) then IndexError else TypeError)
  }

  /** What a failed or successful conversion returns: the bare `return` of line 157, or 1 when
      `intended` is set. */
  function Converted(world: World, intended: bool): Option<int> {
    if intended then ConversionResultIntended(world.linkerStatus, world.dylibWritten)
    else ConversionResult(world.linkerStatus, world.dylibWritten)
  }

  /** Lines 45-162 of `main`. The Windows static-runtime flag is never added: the test compares the
      `os` module, not the system name, with `'win'`. */
  method MainBody(opts: Options, world: World, intended: bool) returns (outcome: Outcome)
    ensures MainEnds(opts, world, Converted(world, intended), outcome)
  {
    if !ValidArch(opts.arch) {
      return Returned(Some(1));
    }
    if !ValidOs(opts.os) {
      return Returned(Some(1));
    }
    var triple := CargoTriple(opts.arch, opts.os, opts.simulator, world.buildTarget).value;
    if world.cargoStatus != 0 {
      return Returned(Some(1));
    }
    var rustDir := Join(Join(opts.cargoBuildDir, triple), "release");
    var found, srcPath := FindLibrary(rustDir, world.existing);
    if !found {
      return Returned(Some(1));
    }
    if Contains(triple, "apple-ios") {
      var dylibArch := DylibArch(CargoArch(opts.arch.value).value);
      var objects := DuplicateObjects(world.linkerOutput);
      if objects.Failure? {
        return Raised(objects.error);
      }
      var result := Converted(world, intended);
      if result != Some(0) {
        return Returned(result);
      }
    }
    return Returned(Some(0));
  }

  /** `main` as written: without `--out-dir` it raises before anything else, and a failed conversion
      returns `None`. */
  method RunAsWritten(opts: Options, world: World) returns (outcome: Outcome)
    ensures opts.outDir.None? ==> outcome == Raised(AttributeError)
    ensures opts.outDir.Some? ==> MainEnds(opts, world, ConversionResult(world.linkerStatus, world.dylibWritten), outcome)
  {
    var outDir := OutDir(opts.outDir);
    if outDir.Failure? {
      return Raised(outDir.error);
    }
    outcome := MainBody(opts, world, false);
  }

  /** `main` with the two corrections above: the out-dir default applies, and a failed conversion
      returns 1. */
  method Run(opts: Options, world: World) returns (outcome: Outcome)
    ensures MainEnds(opts, world, ConversionResultIntended(world.linkerStatus, world.dylibWritten), outcome)
  {
    var outDir := OutDirIntended(opts.outDir);
    outcome := MainBody(opts, world, true);
  }

  /** With the corrections, a returned `main` exits 0 exactly when the library was built, found
      and, for iOS, converted. */
  lemma {:induction false} RunSucceedsExactly(opts: Options, world: World, outcome: Outcome)
    requires MainEnds(opts, world, ConversionResultIntended(world.linkerStatus, world.dylibWritten), outcome)
    requires outcome.Returned?
    ensures ExitStatus(outcome.value) == 0 <==>
              ValidArch(opts.arch) && ValidOs(opts.os) && world.cargoStatus == 0
              && LibraryBuilt(Join(Join(opts.cargoBuildDir,
                   CargoTriple(opts.arch, opts.os, opts.simulator, world.buildTarget).value), "release"), world.existing)
              && (Contains(CargoTriple(opts.arch, opts.os, opts.simulator, world.buildTarget).value, "apple-ios") ==>
                    world.linkerStatus == 0 && world.dylibWritten)
  {
  }
}

=== FILE: http.dfy ===
/**
 * Byte-level facts about HTTP header values and strings that the rest of the
 * model relies on: the rule by which a header value converts to text, the
 * protocol version names, and UTF-8, the encoding a Rust `String` has when a
 * JS string is turned into request body bytes.
 */
module Http {
  import opened Wrappers

  newtype byte = x: int | 0 <= x < 256

  /** The character test a header value passes byte by byte before it may be read as text:
      printable ASCII or a horizontal tab. */
  predicate IsVisibleAscii(b: byte) {
    (32 <= b < 127) || b == 9
  }

  /** A header value that can be read as text (`HeaderValue::to_str` succeeds). */
  predicate IsVisible(v: seq<byte>) {
    forall i :: 0 <= i < |v| ==> IsVisibleAscii(v[i])
  }

  /** The text of a visible header value: one character per byte. */
  function ToStr(v: seq<byte>): (s: string)
    requires IsVisible(v)
    ensures |s| == |v|
    ensures forall i :: 0 <= i < |v| ==> s[i] as int == v[i] as int
  {
    seq(|v|, i requires 0 <= i < |v| => (v[i] as int) as char)
  }

  /** Protocol versions as the response reports them. */
  datatype HttpVersion = Http09 | Http10 | Http11 | Http2 | Http3

  /** The `{:?}` rendering of a version, which the response carries as `httpVersion`. */
  function VersionName(v: HttpVersion): (s: string)
    ensures |s| == 8 && s[..5] == "HTTP/"
  {
    match v
    case Http09 => "HTTP/0.9"
    case Http10 => "HTTP/1.0"
    case Http11 => "HTTP/1.1"
    case Http2 => "HTTP/2.0"
    case Http3 => "HTTP/3.0"
  }

  /** Distinct versions are reported under distinct names. */
  lemma VersionNameInjective(a: HttpVersion, b: HttpVersion)
    requires VersionName(a) == VersionName(b)
    ensures a == b
  {
    assert VersionName(a)[5] == VersionName(b)[5] && VersionName(a)[7] == VersionName(b)[7];
  }

  // ---------------------------------------------------------------- UTF-8

  predicate IsContinuation(b: byte) { 0x80 <= b < 0xC0 }

  /** The UTF-8 encoding of one Unicode scalar value. */
  function EncodeChar(c: char): (r: seq<byte>)
    ensures 1 <= |r| <= 4
    ensures (c as int < 0x80) <==> |r| == 1
    ensures forall i :: 1 <= i < |r| ==> IsContinuation(r[i])
  {
    var n := c as int;
    var a := n / 64;
    var b := a / 64;
    if n < 0x80 then [n as byte]
    else if n < 0x800 then [(0xC0 + a) as byte, (0x80 + n % 64) as byte]
    else if n < 0x10000 then
      [(0xE0 + b) as byte, (0x80 + a % 64) as byte, (0x80 + n % 64) as byte]
    else
      [(0xF0 + b / 64) as byte, (0x80 + b % 64) as byte, (0x80 + a % 64) as byte, (0x80 + n % 64) as byte]
  }

  /** The UTF-8 encoding of a string (the bytes of the Rust `String` it becomes). */
  function Encode(s: string): (r: seq<byte>)
    ensures |s| <= |r| <= 4 * |s|
  {
    if s == [] then [] else EncodeChar(s[0]) + Encode(s[1..])
  }

  /** Strict decoding of the first scalar value of `bs`: the character and how many bytes it took.
      Overlong forms, surrogates and values beyond U+10FFFF are rejected. */
  function DecodeChar(bs: seq<byte>): (r: Option<(char, nat)>)
    ensures r.Some? ==> 1 <= r.value.1 <= |bs| && r.value.1 <= 4
  {
    if |bs| == 0 then None
    else
      var b0 := bs[0] as int;
      if b0 < 0x80 then Some((b0 as char, 1))
      else if 0xC2 <= b0 <= 0xDF && |bs| >= 2 && IsContinuation(bs[1]) then
        Some((((b0 - 0xC0) * 64 + (bs[1] as int - 0x80)) as char, 2))
      else if 0xE0 <= b0 <= 0xEF && |bs| >= 3 && IsContinuation(bs[1]) && IsContinuation(bs[2]) then
        var n := (b0 - 0xE0) * 4096 + (bs[1] as int - 0x80) * 64 + (bs[2] as int - 0x80);
        if n < 0x800 || (0xD800 <= n < 0xE000) then None else Some((n as char, 3))
      else if 0xF0 <= b0 <= 0xF4 && |bs| >= 4 && IsContinuation(bs[1]) && IsContinuation(bs[2])
              && IsContinuation(bs[3]) then
        var n := (b0 - 0xF0) * 262144 + (bs[1] as int - 0x80) * 4096
                 + (bs[2] as int - 0x80) * 64 + (bs[3] as int - 0x80);
        if n < 0x10000 || n > 0x10FFFF then None else Some((n as char, 4))
      else None
  }

  /** Strict decoding of a whole byte string. */
  function Decode(bs: seq<byte>): Option<string>
    decreases |bs|
  {
    if bs == [] then Some([])
    else match DecodeChar(bs)
      case None => None
      case Some((c, k)) =>
        match Decode(bs[k..])
        case None => None
        case Some(s) => Some([c] + s)
  }

  /** Decoding the front of an encoded character gives that character back and consumes exactly its bytes. */
  lemma DecodeEncodeChar(c: char, rest: seq<byte>)
    ensures DecodeChar(EncodeChar(c) + rest) == Some((c, |EncodeChar(c)|))
  {
    var n := c as int;
    if n < 0x80 {
    } else if n < 0x800 {
      DecodeTwo(c, rest);
    } else if n < 0x10000 {
      DecodeThree(c, rest);
    } else {
      DecodeFour(c, rest);
    }
  }

  lemma DecodeTwo(c: char, rest: seq<byte>)
    requires 0x80 <= c as int < 0x800
    ensures DecodeChar(EncodeChar(c) + rest) == Some((c, 2))
  {
    var n := c as int;
    var b0, b1 := 0xC0 + n / 64, 0x80 + n % 64;
    assert EncodeChar(c) == [b0 as byte, b1 as byte];
    var bs := EncodeChar(c) + rest;
    assert bs[0] as int == b0 && bs[1] as int == b1;
    assert (b0 - 0xC0) * 64 + (b1 - 0x80) == n;
  }

  lemma DecodeThree(c: char, rest: seq<byte>)
    requires 0x800 <= c as int < 0x10000
    ensures DecodeChar(EncodeChar(c) + rest) == Some((c, 3))
  {
    var n := c as int;
    var a := n / 64;
    var b := a / 64;
    assert n == 64 * a + n % 64 && a == 64 * b + a % 64;
    var b0, b1, b2 := 0xE0 + b, 0x80 + a % 64, 0x80 + n % 64;
    assert EncodeChar(c) == [b0 as byte, b1 as byte, b2 as byte];
    var bs := EncodeChar(c) + rest;
    assert bs[0] as int == b0 && bs[1] as int == b1 && bs[2] as int == b2;
    assert (b0 - 0xE0) * 4096 + (b1 - 0x80) * 64 + (b2 - 0x80) == n;
  }

  lemma DecodeFour(c: char, rest: seq<byte>)
    requires 0x10000 <= c as int
    ensures DecodeChar(EncodeChar(c) + rest) == Some((c, 4))
  {
    var n := c as int;
    var a := n / 64;
    var b := a / 64;
    var d := b / 64;
    assert n == 64 * a + n % 64 && a == 64 * b + a % 64 && b == 64 * d + b % 64;
    var b0, b1, b2, b3 := 0xF0 + d, 0x80 + b % 64, 0x80 + a % 64, 0x80 + n % 64;
    assert EncodeChar(c) == [b0 as byte, b1 as byte, b2 as byte, b3 as byte];
    var bs := EncodeChar(c) + rest;
    assert bs[0] as int == b0 && bs[1] as int == b1 && bs[2] as int == b2 && bs[3] as int == b3;
    assert (b0 - 0xF0) * 262144 + (b1 - 0x80) * 4096 + (b2 - 0x80) * 64 + (b3 - 0x80) == n;
  }

  /** Decoding undoes encoding: the body bytes made from a string spell exactly that string. */
  lemma {:induction false} DecodeEncode(s: string)
    ensures Decode(Encode(s)) == Some(s)
  {
    if s != [] {
      var e := EncodeChar(s[0]);
      DecodeEncodeChar(s[0], Encode(s[1..]));
      assert (e + Encode(s[1..]))[|e|..] == Encode(s[1..]);
      DecodeEncode(s[1..]);
      assert [s[0]] + s[1..] == s;
    }
  }

  /** The text of a visible header value, encoded again, is the same bytes: `to_str` loses nothing. */
  lemma {:induction false} ToStrEncode(v: seq<byte>)
    requires IsVisible(v)
    ensures Encode(ToStr(v)) == v
  {
    if v != [] {
      assert IsVisible(v[1..]);
      ToStrEncode(v[1..]);
      assert ToStr(v)[1..] == ToStr(v[1..]);
      assert v == [v[0]] + v[1..];
    }
  }
}

=== FILE: js.dfy ===
/**
 * JavaScript values as they cross into and out of the native module, and the
 * ordinary-object operations the wrappers rely on: property lookup, property
 * assignment, object spread, truthiness and the nullish test used by `??`.
 *
 * An object is its list of own string-keyed properties in creation order;
 * assigning to an existing key replaces its value in place, assigning a new
 * key appends it.
 */
module Js {
  import opened Http

  datatype JsValue =
    | Undefined
    | Null
    | Bool(b: bool)
    | Number(n: real)
    | Str(s: string)
    | Buffer(bytes: seq<byte>)
      /** Any other object; `ctor` is its `constructor.name` ("Object", "FormData", ...). */
    | Object(ctor: string, props: seq<Prop>)
    | Function

  datatype Prop = Prop(key: string, value: JsValue)

  /** A plain object literal. */
  function Plain(props: seq<Prop>): JsValue {
    Object("Object", props)
  }

  /** The own keys of an object. */
  function Keys(o: seq<Prop>): set<string> {
    if o == [] then {} else {o[0].key} + Keys(o[1..])
  }

  /** The key of every property is among the object's keys. */
  lemma {:induction false} KeyIn(o: seq<Prop>, i: nat)
    requires i < |o|
    ensures o[i].key in Keys(o)
  {
    if i > 0 {
      KeyIn(o[1..], i - 1);
    }
  }

  /** JS objects never hold the same key twice. */
  predicate DistinctKeys(o: seq<Prop>) {
    o == [] || (o[0].key !in Keys(o[1..]) && DistinctKeys(o[1..]))
  }

  /** `o[k]`: the value under `k`, `undefined` when there is none. */
  function Get(o: seq<Prop>, k: string): (v: JsValue)
    ensures k !in Keys(o) ==> v == Undefined
  {
    if o == [] then Undefined
    else if o[0].key == k then o[0].value
    else Get(o[1..], k)
  }

  lemma KeysCons(p: Prop, o: seq<Prop>)
    ensures Keys([p] + o) == {p.key} + Keys(o)
  {
    assert ([p] + o)[1..] == o;
  }

  /** `o[k] = v`: replaces the value in place when `k` is present, otherwise appends `k`. */
  function Set(o: seq<Prop>, k: string, v: JsValue): (r: seq<Prop>)
    ensures Keys(r) == Keys(o) + {k}
    ensures |r| == if k in Keys(o) then |o| else |o| + 1
  {
    if o == [] then [Prop(k, v)]
    else if o[0].key == k then
      KeysCons(Prop(k, v), o[1..]);
      [Prop(k, v)] + o[1..]
    else
      var r := [o[0]] + Set(o[1..], k, v);
      KeysCons(o[0], Set(o[1..], k, v));
      r
  }

  /** Assignment never creates a second copy of a key. */
  lemma {:induction false} SetDistinct(o: seq<Prop>, k: string, v: JsValue)
    requires DistinctKeys(o)
    ensures DistinctKeys(Set(o, k, v))
  {
    if o == [] {
    } else if o[0].key == k {
      assert ([Prop(k, v)] + o[1..])[1..] == o[1..];
    } else {
      SetDistinct(o[1..], k, v);
      assert ([o[0]] + Set(o[1..], k, v))[1..] == Set(o[1..], k, v);
    }
  }

  /** After `o[k] = v`, reading `k` gives `v` and every other key reads as before. */
  lemma {:induction false} GetSet(o: seq<Prop>, k: string, v: JsValue, k': string)
    ensures Get(Set(o, k, v), k') == if k' == k then v else Get(o, k')
  {
    if o != [] && o[0].key != k {
      GetSet(o[1..], k, v, k');
    }
  }

  /** Reading a concatenation: the first part wins. */
  lemma {:induction false} GetAppend(a: seq<Prop>, b: seq<Prop>, k: string)
    ensures Get(a + b, k) == if k in Keys(a) then Get(a, k) else Get(b, k)
    ensures Keys(a + b) == Keys(a) + Keys(b)
  {
    if a == [] {
      assert a + b == b;
    } else {
      assert (a + b)[1..] == a[1..] + b;
      GetAppend(a[1..], b, k);
    }
  }

  /** Concatenating objects with disjoint keys keeps keys distinct. */
  lemma {:induction false} DistinctAppend(a: seq<Prop>, b: seq<Prop>)
    requires DistinctKeys(a) && DistinctKeys(b) && Keys(a) !! Keys(b)
    ensures DistinctKeys(a + b)
  {
    if a == [] {
      assert a + b == b;
    } else {
      assert (a + b)[1..] == a[1..] + b;
      GetAppend(a[1..], b, a[0].key);
      DistinctAppend(a[1..], b);
    }
  }

  /** On a key not yet present, assignment appends. */
  lemma {:induction false} SetFresh(o: seq<Prop>, k: string, v: JsValue)
    requires k !in Keys(o)
    ensures Set(o, k, v) == o + [Prop(k, v)]
  {
    if o != [] {
      SetFresh(o[1..], k, v);
      assert [o[0]] + (o[1..] + [Prop(k, v)]) == o + [Prop(k, v)];
    }
  }

  /** Everything an assignment does, in one place. */
  lemma SetFacts(o: seq<Prop>, k: string, v: JsValue)
    ensures Get(Set(o, k, v), k) == v
    ensures forall k' :: k' != k ==> Get(Set(o, k, v), k') == Get(o, k')
    ensures DistinctKeys(o) ==> DistinctKeys(Set(o, k, v))
  {
    forall k' ensures Get(Set(o, k, v), k') == if k' == k then v else Get(o, k') {
      GetSet(o, k, v, k');
    }
    if DistinctKeys(o) {
      SetDistinct(o, k, v);
    }
  }

  /** `{...target, ...source}`: assigns every own property of `source`, in order, onto `target`. */
  function Spread(target: seq<Prop>, source: seq<Prop>): seq<Prop>
    decreases |source|
  {
    if source == [] then target
    else Spread(Set(target, source[0].key, source[0].value), source[1..])
  }

  /** A spread object reads every key of the source from the source and every other key from the target. */
  lemma {:induction false} GetSpread(target: seq<Prop>, source: seq<Prop>, k: string)
    requires DistinctKeys(source)
    decreases |source|
    ensures Keys(Spread(target, source)) == Keys(target) + Keys(source)
    ensures Get(Spread(target, source), k) ==
              if k in Keys(source) then Get(source, k) else Get(target, k)
  {
    if source != [] {
      var p := source[0];
      assert DistinctKeys(source[1..]);
      assert Keys(source) == {p.key} + Keys(source[1..]);
      GetSpread(Set(target, p.key, p.value), source[1..], k);
      GetSet(target, p.key, p.value, k);
      if k == p.key {
        assert k !in Keys(source[1..]);
      }
    }
  }

  /** The statement `o[k] = v`: afterwards `k` reads `v`, every other key reads as before, and
      the keys stay distinct. */
  method Assign(o: seq<Prop>, k: string, v: JsValue) returns (r: seq<Prop>)
    ensures Get(r, k) == v
    ensures forall k' :: k' != k ==> Get(r, k') == Get(o, k')
    ensures Keys(r) == Keys(o) + {k}
    ensures DistinctKeys(o) ==> DistinctKeys(r)
  {
    SetFacts(o, k, v);
    r := Set(o, k, v);
  }

  /** The expression `{...target, ...source}`: the source's keys read from the source, all other
      keys from the target. */
  method SpreadCopy(target: seq<Prop>, source: seq<Prop>) returns (r: seq<Prop>)
    requires DistinctKeys(source)
    ensures forall k :: Get(r, k) == if k in Keys(source) then Get(source, k) else Get(target, k)
    ensures Keys(r) == Keys(target) + Keys(source)
  {
    r := Spread(target, source);
    forall k ensures Get(r, k) == if k in Keys(source) then Get(source, k) else Get(target, k) {
      GetSpread(target, source, k);
    }
    GetSpread(target, source, "");
  }

  /** JS truthiness (`if (x)`); NaN is not modelled. */
  predicate Truthy(v: JsValue) {
    match v
    case Undefined => false
    case Null => false
    case Bool(b) => b
    case Number(n) => n != 0.0
    case Str(s) => s != ""
    case Buffer(_) => true
    case Object(_, _) => true
    case Function => true
  }

  /** The values `??` replaces: `null` and `undefined`. */
  predicate Nullish(v: JsValue) {
    v == Undefined || v == Null
  }

  /** `a ?? b`. */
  function Coalesce(a: JsValue, b: JsValue): (r: JsValue)
    ensures Nullish(a) ==> r == b
    ensures !Nullish(a) ==> r == a
  {
    if Nullish(a) then b else a
  }
}

=== FILE: js_wrapper.dfy ===
/**
 * The older JavaScript wrapper: a `Jar` holding a native cookie-jar handle, a
 * `Builder` holding a native builder handle, and a `Client` whose `request`
 * fills in missing arguments in place before handing them to the native
 * request. The native functions it calls are parameters: each is the value
 * the native call returns for the handle and arguments it is given.
 */
module JsWrapper {
  import opened Wrappers
  import opened Js
  import NativeClient

  // ------------------------------------------------------------- Jar

  /** Adding cookie strings one after another, in order, through the native call `add`. */
  function AddAll(jar: JsValue, cookies: seq<string>, url: string,
                  add: (JsValue, string, string) -> JsValue): JsValue
    decreases |cookies|
  {
    if cookies == [] then jar
    else add(AddAll(jar, cookies[..|cookies| - 1], url, add), cookies[|cookies| - 1], url)
  }

  /** Adding two batches one after the other is adding their concatenation. */
  lemma {:induction false} AddAllAppend(jar: JsValue, a: seq<string>, b: seq<string>, url: string,
                                        add: (JsValue, string, string) -> JsValue)
    decreases |b|
    ensures AddAll(jar, a + b, url, add) == AddAll(AddAll(jar, a, url, add), b, url, add)
  {
    if b == [] {
      assert a + b == a;
    } else {
      var b' := b[..|b| - 1];
      AddAllAppend(jar, a, b', url, add);
      assert (a + b)[..|a + b| - 1] == a + b';
    }
  }

  /** `Jar`: a native cookie-jar handle, `null` once the jar has been handed to a builder. */
  class Jar {
    var jar: JsValue

    /** `new Jar()`; `created` is what the native `jarNew` returns. */
    constructor (created: JsValue)
      ensures jar == created
    {
      jar := created;
    }

    /** `addCookieStr`: the handle becomes what the native call returns for the old handle, the
        cookie string and the URL; the jar itself is returned for chaining. */
    method AddCookieStr(cookieStr: string, url: string, add: (JsValue, string, string) -> JsValue)
      returns (self: Jar)
      modifies this
      ensures self == this
      ensures jar == add(old(jar), cookieStr, url)
    {
      jar := add(jar, cookieStr, url);
      self := this;
    }

    /** `useToughJar`: `cookies` are the `toString()` of the cookies the other jar returns for
        `url`, in its order; each is added with `addCookieStr`, in that order. */
    method UseToughJar(cookies: seq<string>, url: string, add: (JsValue, string, string) -> JsValue)
      returns (self: Jar)
      modifies this
      ensures self == this
      ensures jar == AddAll(old(jar), cookies, url, add)
    {
      var i := 0;
      while i < |cookies|
        invariant 0 <= i <= |cookies|
        invariant jar == AddAll(old(jar), cookies[..i], url, add)
      {
        var _ := AddCookieStr(cookies[i], url, add);
        assert cookies[..i + 1][..i] == cookies[..i];
        i := i + 1;
      }
      assert cookies[..i] == cookies;
      self := this;
    }
  }

  // ------------------------------------------------------------- Builder

  /** The native `Client` handle, wrapped. */
  class Client {
    const client: JsValue

    constructor (native: JsValue)
      ensures client == native
    {
      client := native;
    }

    /** `request(url, args = {})` up to the native call: sets `method`, `headers`, `body` and
        `query` on the caller's object in place, each only where it is null or undefined, and
        passes that same object on. `args == null` stands for an omitted argument, which gets a
        fresh empty object. */
    method Request(args: ArgsObject?) returns (sent: ArgsObject)
      modifies args
      ensures args != null ==> sent == args
      ensures args == null ==> fresh(sent)
      ensures forall k :: Get(sent.props, k) == Defaulted(if args == null then [] else old(args.props), k)
      ensures args != null && DistinctKeys(old(args.props)) ==> DistinctKeys(sent.props)
    {
      if args == null {
        sent := new ArgsObject([]);
      } else {
        sent := args;
      }
      ghost var before := sent.props;
      var p0 := sent.props;
      var p1 := Assign(p0, "method", Coalesce(Get(p0, "method"), Str("GET")));
      var p2 := Assign(p1, "headers", Coalesce(Get(p1, "headers"), Plain([])));
      var p3 := Assign(p2, "body", Coalesce(Get(p2, "body"), Str("")));
      var p4 := Assign(p3, "query", Coalesce(Get(p3, "query"), Plain([])));
      sent.props := p4;
      forall k ensures Get(p4, k) == Defaulted(before, k) {
        if k == "query" {
        } else if k == "body" {
          assert Get(p4, k) == Get(p3, k);
        } else if k == "headers" {
          assert Get(p4, k) == Get(p3, k) == Get(p2, k);
        } else if k == "method" {
          assert Get(p4, k) == Get(p3, k) == Get(p2, k) == Get(p1, k);
        } else {
          assert Get(p4, k) == Get(p3, k) == Get(p2, k) == Get(p1, k) == Get(p0, k);
        }
      }
    }
  }

  /** The default `request` gives a missing argument the native request reads, if any. */
  function RequestDefault(k: string): Option<JsValue> {
    if k == "method" then Some(Str("GET"))
    else if k == "headers" then Some(Plain([]))
    else if k == "body" then Some(Str(""))
    else if k == "query" then Some(Plain([]))
    else None
  }

  /** What a key of the arguments reads after `request`'s defaulting: a value the caller gave is
      kept, and a key with a default never reads `undefined` or `null`. */
  function Defaulted(props: seq<Prop>, k: string): (v: JsValue)
    ensures !Nullish(Get(props, k)) || RequestDefault(k).None? ==> v == Get(props, k)
    ensures Nullish(Get(props, k)) && RequestDefault(k).Some? ==> v == RequestDefault(k).value
    ensures RequestDefault(k).Some? ==> !Nullish(v)
  {
    match RequestDefault(k)
    case Some(d) => Coalesce(Get(props, k), d)
    case None => Get(props, k)
  }

  /** The caller's request arguments, an object `request` mutates. */
  class ArgsObject {
    var props: seq<Prop>

    constructor (props: seq<Prop>)
      ensures this.props == props
    {
      this.props := props;
    }
  }

  /** `Builder`: a native builder handle, `null` once built. */
  class Builder {
    var builder: JsValue

    /** `new Builder()`; `created` is what the native `builderNew` returns. */
    constructor (created: JsValue)
      ensures builder == created
    {
      builder := created;
    }

    /** `setJar`: hands the jar's native handle to the builder and leaves the jar holding `null`,
        so the handle has a single owner; returns the builder for chaining. */
    method SetJar(jar: Jar, withJar: (JsValue, JsValue) -> JsValue) returns (self: Builder)
      modifies this, jar
      ensures self == this
      ensures builder == withJar(old(builder), old(jar.jar))
      ensures jar.jar == Null
    {
      builder := withJar(builder, jar.jar);
      jar.jar := Null;
      self := this;
    }

    /** `setUserAgent`: the handle becomes what the native call returns; returns the builder. */
    method SetUserAgent(userAgent: JsValue, withUserAgent: (JsValue, JsValue) -> JsValue) returns (self: Builder)
      modifies this
      ensures self == this
      ensures builder == withUserAgent(old(builder), userAgent)
    {
      builder := withUserAgent(builder, userAgent);
      self := this;
    }

    /** `build`: wraps what the native build returns in a fresh `Client` and leaves the builder
        holding `null`, so a later call hands `null` to the native side. */
    method Build(build: JsValue -> JsValue) returns (client: Client)
      modifies this
      ensures fresh(client)
      ensures client.client == build(old(builder))
      ensures builder == Null
    {
      client := new Client(build(builder));
      builder := Null;
    }
  }

  // ------------------------------------------------------------- against the native request

  /** A request made with no arguments reaches the native request with `GET`, no headers, an empty
      body and no query, so the native side accepts it exactly when `GET` is a method and the empty
      header map converts. */
  lemma EmptyArgsAccepted(url: string, props: seq<Prop>, methodOk: string -> bool,
                          headersOk: map<string, string> -> bool)
    requires forall k :: Get(props, k) == Defaulted([], k)
    ensures NativeClient.Acceptable(Str(url), Plain(props), Function, methodOk, headersOk)
            <==> methodOk("GET") && headersOk(map[])
  {
    var m, h, b, q := Get(props, "method"), Get(props, "headers"), Get(props, "body"), Get(props, "query");
    assert m == Str("GET") by { assert m == Defaulted([], "method"); }
    assert h == Plain([]) by { assert h == Defaulted([], "headers"); }
    assert b == Str("") by { assert b == Defaulted([], "body"); }
    assert q == Plain([]) by { assert q == Defaulted([], "query"); }
    assert NativeClient.AllStrings([]);
    EmptyHeaderMap(headersOk);
  }

  /** The empty header object mirrors only the empty map. */
  lemma EmptyHeaderMap(headersOk: map<string, string> -> bool)
    ensures (forall hm :: NativeClient.Mirrors([], hm) ==> headersOk(hm)) <==> headersOk(map[])
  {
    assert NativeClient.Mirrors([], map[]);
    forall hm | NativeClient.Mirrors([], hm) ensures hm == map[] {
      assert hm.Keys == {};
    }
  }
}

=== FILE: native_builder.dfy ===
/**
 * The native client builder. A `Builder` handle owns an optional inner
 * configuration; every setter takes the configuration out of the handle
 * (leaving the handle empty), changes one setting and returns a new handle
 * holding the result. `build` takes the configuration out the same way,
 * fixes the HTTP/2 initial stream window and freezes it into a client.
 * Using a handle a second time therefore fails when the empty slot is
 * unwrapped.
 */
module NativeBuilder {
  import opened Wrappers
  import opened Js

  /** Redirect policy: never follow (the redirect response is returned as is), or follow up to `max` redirects. */
  datatype Policy = NoRedirects | Limited(max: nat)

  /** Logging verbosity. */
  datatype LevelFilter = Off | Error | Warn | Info | Debug | Trace

  /** The settings of the underlying HTTP client that this module touches, with their defaults below. */
  datatype ClientConfig = ClientConfig(
    connectTimeout: Option<nat>,                 // whole seconds
    timeout: Option<nat>,                        // whole seconds
    httpsOnly: bool,
    redirect: Policy,
    http2AdaptiveWindow: bool,
    connectionVerbose: bool,
    http2InitialStreamWindowSize: Option<nat>)

  /** A fresh client configuration: no timeouts, plain HTTP allowed, up to 10 redirects followed. */
  const DefaultClientConfig := ClientConfig(None, None, false, Limited(10), false, false, None)

  /** `BuilderInner`: the client configuration plus the log level. */
  datatype Inner = Inner(client: ClientConfig, logLevel: LevelFilter)

  /** The HTTP/2 initial stream window every built client gets: 1024 * 256 * 24 bytes. */
  const StreamWindow: nat := 1024 * 256 * 24

  /** A built client: its configuration is frozen. */
  datatype Client = Client(config: ClientConfig)

  /** Why a builder call throws: the argument has the wrong JS type, or the handle was already used. */
  datatype Failure = ArgumentTypeError | ConsumedBuilder

  const U64Max: nat := 0xFFFF_FFFF_FFFF_FFFF

  /** Rust's float-to-unsigned cast `x as u64` (and `as usize` on 64-bit targets): truncates toward
      zero and saturates at both ends. NaN is not modelled. */
  function CastU64(x: real): (n: nat)
    ensures n <= U64Max
    ensures x < 1.0 ==> n == 0
    ensures 0.0 <= x < (U64Max + 1) as real ==> n as real <= x < n as real + 1.0
    ensures x >= (U64Max + 1) as real ==> n == U64Max
  {
    if x <= 0.0 then 0 else if x >= (U64Max + 1) as real then U64Max else x.Floor
  }

  /** The number of redirects a policy follows. */
  function MaxRedirects(p: Policy): nat {
    match p
    case NoRedirects => 0
    case Limited(n) => n
  }

  /** The redirect limit's policy: 0 means never follow, any other count follows that many. */
  function RedirectPolicy(limit: nat): (p: Policy)
    ensures p.NoRedirects? <==> limit == 0
    ensures MaxRedirects(p) == limit
  {
    if limit == 0 then NoRedirects else Limited(limit)
  }

  /** The numeric code of each level (the JS-facing `LogLevel` enumeration). */
  function LevelCode(l: LevelFilter): (n: nat)
    ensures n <= 5
  {
    match l
    case Off => 0
    case Error => 1
    case Warn => 2
    case Info => 3
    case Debug => 4
    case Trace => 5
  }

  /** The level a numeric code selects: codes 0 to 5 select the level with that code, anything
      larger selects `Info`. */
  function LevelFromCode(code: nat): (l: LevelFilter)
    ensures code <= 5 ==> LevelCode(l) == code
    ensures code > 5 ==> l == Info
  {
    match code
    case 0 => Off
    case 1 => Error
    case 2 => Warn
    case 3 => Info
    case 4 => Debug
    case 5 => Trace
    case _ => Info
  }

  /** Every level survives the round trip through its code. */
  lemma LevelRoundTrip(l: LevelFilter)
    ensures LevelFromCode(LevelCode(l)) == l
  {
  }

  /** `BuilderInner::new`: default client configuration at log level `Info`. */
  function NewInner(): (cb: Inner)
    ensures cb.logLevel == Info && cb.client == DefaultClientConfig
  {
    Inner(DefaultClientConfig, Info)
  }

  /** One builder setting, with the argument already read from JS. */
  datatype Setting =
    | SetConnectTimeout(seconds: real)
    | SetRequestTimeout(seconds: real)
    | SetHttpsOnly(only: bool)
    | SetRedirectLimit(limit: real)
    | SetHttp2AdaptiveWindow(enabled: bool)
    | SetLogLevel(level: real)

  /** The configuration after one setting. */
  function Apply(cb: Inner, s: Setting): Inner {
    match s
    case SetConnectTimeout(x) => cb.(client := cb.client.(connectTimeout := Some(CastU64(x))))
    case SetRequestTimeout(x) => cb.(client := cb.client.(timeout := Some(CastU64(x))))
    case SetHttpsOnly(b) => cb.(client := cb.client.(httpsOnly := b))
    case SetRedirectLimit(x) => cb.(client := cb.client.(redirect := RedirectPolicy(CastU64(x))))
    case SetHttp2AdaptiveWindow(b) => cb.(client := cb.client.(http2AdaptiveWindow := b))
    case SetLogLevel(x) =>
      var code := CastU64(x);
      var client := if code == 5 then cb.client.(connectionVerbose := true) else cb.client;
      Inner(client, LevelFromCode(code))
  }

  /** The log-level setting: the level follows the code table, and connection-level wire logging
      is switched on exactly when the code is 5; any other code leaves the client configuration
      untouched. */
  lemma LogLevelEffect(cb: Inner, x: real)
    ensures Apply(cb, SetLogLevel(x)).logLevel == LevelFromCode(CastU64(x))
    ensures CastU64(x) == 5 ==> Apply(cb, SetLogLevel(x)).client == cb.client.(connectionVerbose := true)
    ensures CastU64(x) != 5 ==> Apply(cb, SetLogLevel(x)).client == cb.client
    ensures Apply(cb, SetLogLevel(x)).logLevel == Trace <==> 5.0 <= x < 6.0
  {
    if 5.0 <= x < 6.0 {
      assert CastU64(x) == 5;
    }
  }

  /** Every other setting leaves the log level, wire logging and the stream window alone. */
  lemma OtherSettingsKeepLogLevel(cb: Inner, s: Setting)
    requires !s.SetLogLevel?
    ensures Apply(cb, s).logLevel == cb.logLevel
    ensures Apply(cb, s).client.connectionVerbose == cb.client.connectionVerbose
    ensures Apply(cb, s).client.http2InitialStreamWindowSize == cb.client.http2InitialStreamWindowSize
  {
  }

  /** The configuration a built client is made from. */
  function Frozen(cb: Inner): (c: Client)
    ensures c.config.http2InitialStreamWindowSize == Some(6291456)
  {
    Client(cb.client.(http2InitialStreamWindowSize := Some(StreamWindow)))
  }

  class Builder {
    var inner: Option<Inner>

    /** `Builder::new`: a handle holding a fresh configuration. */
    constructor ()
      ensures inner == Some(NewInner())
    {
      inner := Some(NewInner());
    }

    /** `Builder::containerize`: a new handle holding `cb`. */
    constructor Containerize(cb: Inner)
      ensures inner == Some(cb)
    {
      inner := Some(cb);
    }

    /** Takes the configuration out, applies `s` and hands it to a fresh handle; the receiver is
        left empty either way, and an empty receiver throws. */
    method Step(s: Setting) returns (r: Result<Builder, Failure>)
      modifies this
      ensures inner == None
      ensures old(inner).None? ==> r == Failure(ConsumedBuilder)
      ensures old(inner).Some? ==> r.Success? && fresh(r.value)
                                   && r.value.inner == Some(Apply(old(inner).value, s))
    {
      var cb := inner;
      inner := None;
      if cb.None? {
        return Failure(ConsumedBuilder);
      }
      var b := new Builder.Containerize(Apply(cb.value, s));
      r := Success(b);
    }

    /** `js_connect_timeout`: a non-number argument throws before the handle is touched. */
    method ConnectTimeout(arg: JsValue) returns (r: Result<Builder, Failure>)
      modifies this
      ensures !arg.Number? ==> r == Failure(ArgumentTypeError) && inner == old(inner)
      ensures arg.Number? ==> inner == None
      ensures arg.Number? && old(inner).None? ==> r == Failure(ConsumedBuilder)
      ensures arg.Number? && old(inner).Some? ==>
                r.Success? && fresh(r.value)
                && r.value.inner == Some(Apply(old(inner).value, SetConnectTimeout(arg.n)))
    {
      if !arg.Number? {
        return Failure(ArgumentTypeError);
      }
      r := Step(SetConnectTimeout(arg.n));
    }

    /** `js_request_timeout`. */
    method RequestTimeout(arg: JsValue) returns (r: Result<Builder, Failure>)
      modifies this
      ensures !arg.Number? ==> r == Failure(ArgumentTypeError) && inner == old(inner)
      ensures arg.Number? ==> inner == None
      ensures arg.Number? && old(inner).None? ==> r == Failure(ConsumedBuilder)
      ensures arg.Number? && old(inner).Some? ==>
                r.Success? && fresh(r.value)
                && r.value.inner == Some(Apply(old(inner).value, SetRequestTimeout(arg.n)))
    {
      if !arg.Number? {
        return Failure(ArgumentTypeError);
      }
      r := Step(SetRequestTimeout(arg.n));
    }

    /** `js_https_only`: the argument must be a JS boolean. */
    method HttpsOnly(arg: JsValue) returns (r: Result<Builder, Failure>)
      modifies this
      ensures !arg.Bool? ==> r == Failure(ArgumentTypeError) && inner == old(inner)
      ensures arg.Bool? ==> inner == None
      ensures arg.Bool? && old(inner).None? ==> r == Failure(ConsumedBuilder)
      ensures arg.Bool? && old(inner).Some? ==>
                r.Success? && fresh(r.value)
                && r.value.inner == Some(Apply(old(inner).value, SetHttpsOnly(arg.b)))
    {
      if !arg.Bool? {
        return Failure(ArgumentTypeError);
      }
      r := Step(SetHttpsOnly(arg.b));
    }

    /** `js_redirect_limit`. */
    method RedirectLimit(arg: JsValue) returns (r: Result<Builder, Failure>)
      modifies this
      ensures !arg.Number? ==> r == Failure(ArgumentTypeError) && inner == old(inner)
      ensures arg.Number? ==> inner == None
      ensures arg.Number? && old(inner).None? ==> r == Failure(ConsumedBuilder)
      ensures arg.Number? && old(inner).Some? ==>
                r.Success? && fresh(r.value)
                && r.value.inner == Some(Apply(old(inner).value, SetRedirectLimit(arg.n)))
    {
      if !arg.Number? {
        return Failure(ArgumentTypeError);
      }
      r := Step(SetRedirectLimit(arg.n));
    }

    /** `js_http2_adaptive_window`: the argument must be a JS boolean. */
    method Http2AdaptiveWindow(arg: JsValue) returns (r: Result<Builder, Failure>)
      modifies this
      ensures !arg.Bool? ==> r == Failure(ArgumentTypeError) && inner == old(inner)
      ensures arg.Bool? ==> inner == None
      ensures arg.Bool? && old(inner).None? ==> r == Failure(ConsumedBuilder)
      ensures arg.Bool? && old(inner).Some? ==>
                r.Success? && fresh(r.value)
                && r.value.inner == Some(Apply(old(inner).value, SetHttp2AdaptiveWindow(arg.b)))
    {
      if !arg.Bool? {
        return Failure(ArgumentTypeError);
      }
      r := Step(SetHttp2AdaptiveWindow(arg.b));
    }

    /** `js_log_level`. Initialising the process-wide logger is not modelled. */
    method LogLevel(arg: JsValue) returns (r: Result<Builder, Failure>)
      modifies this
      ensures !arg.Number? ==> r == Failure(ArgumentTypeError) && inner == old(inner)
      ensures arg.Number? ==> inner == None
      ensures arg.Number? && old(inner).None? ==> r == Failure(ConsumedBuilder)
      ensures arg.Number? && old(inner).Some? ==>
                r.Success? && fresh(r.value)
                && r.value.inner == Some(Apply(old(inner).value, SetLogLevel(arg.n)))
    {
      if !arg.Number? {
        return Failure(ArgumentTypeError);
      }
      r := Step(SetLogLevel(arg.n));
    }

    /** `js_build`: consumes the configuration and freezes it, with the fixed stream window, into a client. */
    method Build() returns (r: Result<Client, Failure>)
      modifies this
      ensures inner == None
      ensures old(inner).None? ==> r == Failure(ConsumedBuilder)
      ensures old(inner).Some? ==> r == Success(Frozen(old(inner).value))
    {
      var cb := inner;
      inner := None;
      if cb.None? {
        return Failure(ConsumedBuilder);
      }
      r := Success(Frozen(cb.value));
    }
  }

  /** A handle used twice: whatever the two settings, the second finds the slot empty and throws. */
  method SecondUseFails(b: Builder, first: Setting, second: Setting) returns (r: Result<Builder, Failure>)
    modifies b
    ensures r == Failure(ConsumedBuilder) && b.inner == None
  {
    var _ := b.Step(first);
    r := b.Step(second);
  }
}

=== FILE: native_client.dfy ===
/**
 * Marshalling between JS values and the native request engine: reading a
 * string-to-string object, turning a body argument into bytes, validating the
 * arguments of a request, copying a response into a transport-agnostic
 * payload, and turning that payload into the JS object handed to the caller.
 * Sending the request, the async runtime and the callback channel are not
 * part of this model.
 */
module NativeClient {
  import opened Wrappers
  import opened Http
  import opened Js

  /** How a native call throws into JS. */
  datatype Error =
    | TypeError          // an argument or property has the wrong JS type
    | InvalidMethod      // the method string is not an HTTP method (a panic at `unwrap`)
    | InvalidHeaders     // the header map was refused by the HTTP layer

  // ------------------------------------------------------------- JS object -> string map

  /** `m` holds exactly the properties of `o`, each as the string it is in `o`. */
  ghost predicate Mirrors(o: seq<Prop>, m: map<string, string>) {
    m.Keys == Keys(o) && forall k :: k in m ==> Get(o, k) == Str(m[k])
  }

  /** Every own property of `o` holds a string. */
  ghost predicate AllStrings(o: seq<Prop>) {
    forall k :: k in Keys(o) ==> Get(o, k).Str?
  }

  lemma KeysSnoc(o: seq<Prop>, i: nat)
    requires i < |o|
    ensures Keys(o[..i + 1]) == Keys(o[..i]) + {o[i].key}
  {
    if i > 0 {
      KeysSnoc(o[1..], i - 1);
      assert o[1..][..i] == o[..i + 1][1..];
      assert o[1..][..i - 1] == o[..i][1..];
    }
  }

  /** `map_jsobject`: walks the own property names in order, reads each property and inserts it into a
      map; the first property that is not a string throws. (Own property names are always strings in
      JS, so the name check of the source cannot fail and is not modelled.) */
  method MapJsObject(o: seq<Prop>) returns (r: Result<map<string, string>, Error>)
    ensures r.Success? <==> AllStrings(o)
    ensures r.Success? ==> Mirrors(o, r.value)
    ensures r.Failure? ==> r.error == TypeError
  {
    var m: map<string, string> := map[];
    var i := 0;
    while i < |o|
      invariant 0 <= i <= |o|
      invariant m.Keys == Keys(o[..i])
      invariant forall k :: k in m ==> Get(o, k) == Str(m[k])
    {
      var name := o[i].key;
      var v := Get(o, name);
      KeysSnoc(o, i);
      if !v.Str? {
        KeyIn(o, i);
        return Failure(TypeError);
      }
      m := m[name := v.s];
      i := i + 1;
    }
    assert o[..|o|] == o;
    r := Success(m);
  }

  // ------------------------------------------------------------- body

  /** `map_body`: a string becomes its UTF-8 bytes, a buffer is copied byte for byte, anything else throws. */
  function MapBody(v: JsValue): (r: Result<seq<byte>, Error>)
    ensures v.Str? ==> r.Success? && Decode(r.value) == Some(v.s)
    ensures v.Buffer? ==> r == Success(v.bytes)
    ensures !v.Str? && !v.Buffer? ==> r == Failure(TypeError)
  {
    match v
    case Str(s) => DecodeEncode(s); Success(Encode(s))
    case Buffer(bytes) => Success(bytes)
    case _ => Failure(TypeError)
  }

  // ------------------------------------------------------------- request arguments

  /** What the engine is asked to send. */
  datatype WireRequest = WireRequest(
    verb: string, url: string, headers: map<string, string>, body: seq<byte>, query: map<string, string>)

  /** The decimal name of an array index. */
  function IndexKey(n: nat): (k: string)
    ensures |k| > 0
    decreases n
  {
    var digit := (48 + n % 10) as char;
    if n < 10 then [digit] else IndexKey(n / 10) + [digit]
  }

  /** A buffer's own enumerable properties: its indices, each holding the byte as a number. */
  function IndexProps(bytes: seq<byte>): seq<Prop> {
    seq(|bytes|, i requires 0 <= i < |bytes| => Prop(IndexKey(i), Number(bytes[i] as real)))
  }

  /** What `downcast_or_throw::<JsObject>` followed by `map_jsobject` sees of a value: its own
      enumerable properties. A buffer is a JS object whose properties are its indices, so only an
      empty one reads as an object of strings. Any other value fails the downcast, a function
      included: the downcast asks for `typeof` "object", and a function's is "function". */
  function ObjectProps(v: JsValue): (r: Option<seq<Prop>>)
    ensures v.Object? ==> r == Some(v.props)
    ensures v == Buffer([]) ==> r == Some([])
    ensures v.Buffer? && v.bytes != [] ==> r.Some? && !AllStrings(r.value)
    ensures !v.Object? && !v.Buffer? ==> r.None?
  {
    match v
    case Object(_, props) => Some(props)
    case Buffer(bytes) =>
      var props := IndexProps(bytes);
      if bytes == [] then Some(props) else KeyIn(props, 0); Some(props)
    case _ => None
  }

  /** `downcast_or_throw::<JsObject>` followed by `map_jsobject`, as `js_request` applies them to
      `headers` and to `query`. */
  method ReadStringObject(v: JsValue) returns (r: Result<map<string, string>, Error>)
    ensures r.Success? <==> StringObject(v)
    ensures r.Success? ==> Mirrors(ObjectProps(v).value, r.value)
    ensures r.Failure? ==> r.error == TypeError
  {
    var props := ObjectProps(v);
    if props.None? {
      return Failure(TypeError);
    }
    r := MapJsObject(props.value);
  }

  /** The three arguments of `js_request` have their types: a string, an object and a function. */
  predicate ArgsTyped(url: JsValue, args: JsValue, callback: JsValue) {
    url.Str? && args.Object? && callback == Function
  }

  /** `method` is a string the HTTP layer accepts. */
  predicate MethodAccepted(args: seq<Prop>, methodOk: string -> bool) {
    Get(args, "method").Str? && methodOk(Get(args, "method").s)
  }

  /** `value` reads as an object of strings. */
  ghost predicate StringObject(value: JsValue) {
    ObjectProps(value).Some? && AllStrings(ObjectProps(value).value)
  }

  /** `headers` reads as an object of strings whose map the HTTP layer accepts as a header map. */
  ghost predicate HeadersAccepted(args: seq<Prop>, headersOk: map<string, string> -> bool) {
    && StringObject(Get(args, "headers"))
    && forall hm :: Mirrors(ObjectProps(Get(args, "headers")).value, hm) ==> headersOk(hm)
  }

  /** `body` is a string or a buffer. */
  predicate BodyTyped(args: seq<Prop>) {
    Get(args, "body").Str? || Get(args, "body").Buffer?
  }

  /** The request arguments the source accepts before anything is sent: a string URL, an arguments
      object and a callback; in the arguments, a string `method` the HTTP layer accepts, a `headers`
      object of strings the HTTP layer accepts as a header map, a string or buffer `body`, and a
      `query` object of strings. */
  /** The headers, body and query all pass. */
  ghost predicate OptionsAccepted(args: seq<Prop>, headersOk: map<string, string> -> bool) {
    HeadersAccepted(args, headersOk) && BodyTyped(args) && StringObject(Get(args, "query"))
  }

  ghost predicate Acceptable(url: JsValue, args: JsValue, callback: JsValue,
                             methodOk: string -> bool, headersOk: map<string, string> -> bool)
  {
    && ArgsTyped(url, args, callback)
    && MethodAccepted(args.props, methodOk)
    && OptionsAccepted(args.props, headersOk)
  }

  /** `js_request` up to the point where the request is handed to the runtime: reads and checks the
      arguments in order and builds the request. `methodOk` stands for `Method::from_str`
      succeeding; `headersOk` for the conversion of the header map into the HTTP layer's. Each check
      that fails decides the error; a buffer passed as the arguments object passes the object
      downcast but has no `method`, and fails there with the same `TypeError` as any other
      non-object. */
  method JsRequest(url: JsValue, args: JsValue, callback: JsValue,
                   methodOk: string -> bool, headersOk: map<string, string> -> bool)
    returns (r: Result<WireRequest, Error>)
    ensures r.Success? <==> Acceptable(url, args, callback, methodOk, headersOk)
    ensures r.Success? ==>
              && r.value.url == url.s
              && Str(r.value.verb) == Get(args.props, "method")
              && Mirrors(ObjectProps(Get(args.props, "headers")).value, r.value.headers)
              && MapBody(Get(args.props, "body")) == Success(r.value.body)
              && Mirrors(ObjectProps(Get(args.props, "query")).value, r.value.query)
    ensures !ArgsTyped(url, args, callback) ==> r == Failure(TypeError)
    ensures ArgsTyped(url, args, callback) && !Get(args.props, "method").Str? ==> r == Failure(TypeError)
    ensures (ArgsTyped(url, args, callback) && Get(args.props, "method").Str?
             && !methodOk(Get(args.props, "method").s)) ==> r == Failure(InvalidMethod)
    ensures (ArgsTyped(url, args, callback) && MethodAccepted(args.props, methodOk)
             && !StringObject(Get(args.props, "headers"))) ==> r == Failure(TypeError)
    ensures r == Failure(InvalidHeaders) <==>
              && ArgsTyped(url, args, callback) && MethodAccepted(args.props, methodOk)
              && StringObject(Get(args.props, "headers")) && !HeadersAccepted(args.props, headersOk)
    ensures (ArgsTyped(url, args, callback) && MethodAccepted(args.props, methodOk)
             && HeadersAccepted(args.props, headersOk) && !BodyTyped(args.props)) ==> r == Failure(TypeError)
    ensures (ArgsTyped(url, args, callback) && MethodAccepted(args.props, methodOk)
             && HeadersAccepted(args.props, headersOk) && BodyTyped(args.props)
             && !StringObject(Get(args.props, "query"))) ==> r == Failure(TypeError)
  {
    var verb := ReadVerb(url, args, callback, methodOk);
    if verb.Failure? {
      return Failure(verb.error);
    }
    var options := ReadOptions(args.props, headersOk);
    if options.Failure? {
      return Failure(options.error);
    }
    var (headers, body, query) := options.value;
    r := Success(WireRequest(verb.value, url.s, headers, body, query));
  }

  /** The argument types and the `method` property: the verb, or the first check that fails. */
  method ReadVerb(url: JsValue, args: JsValue, callback: JsValue, methodOk: string -> bool)
    returns (r: Result<string, Error>)
    ensures r.Success? <==> ArgsTyped(url, args, callback) && MethodAccepted(args.props, methodOk)
    ensures r.Success? ==> Str(r.value) == Get(args.props, "method")
    ensures !ArgsTyped(url, args, callback) ==> r == Failure(TypeError)
    ensures ArgsTyped(url, args, callback) && !Get(args.props, "method").Str? ==> r == Failure(TypeError)
    ensures (ArgsTyped(url, args, callback) && Get(args.props, "method").Str?
             && !methodOk(Get(args.props, "method").s)) ==> r == Failure(InvalidMethod)
  {
    if !url.Str? || !args.Object? || callback != Function {
      return Failure(TypeError);
    }
    var m := Get(args.props, "method");
    if !m.Str? {
      return Failure(TypeError);
    }
    if !methodOk(m.s) {
      return Failure(InvalidMethod);
    }
    r := Success(m.s);
  }

  /** The `headers`, `body` and `query` properties, read in that order: their values, or the
      first check that fails. */
  method ReadOptions(args: seq<Prop>, headersOk: map<string, string> -> bool)
    returns (r: Result<(map<string, string>, seq<byte>, map<string, string>), Error>)
    ensures r.Success? <==> OptionsAccepted(args, headersOk)
    ensures r.Success? ==>
              && Mirrors(ObjectProps(Get(args, "headers")).value, r.value.0)
              && MapBody(Get(args, "body")) == Success(r.value.1)
              && Mirrors(ObjectProps(Get(args, "query")).value, r.value.2)
    ensures !StringObject(Get(args, "headers")) ==> r == Failure(TypeError)
    ensures r == Failure(InvalidHeaders) <==>
              StringObject(Get(args, "headers")) && !HeadersAccepted(args, headersOk)
    ensures HeadersAccepted(args, headersOk) && !BodyTyped(args) ==> r == Failure(TypeError)
    ensures (HeadersAccepted(args, headersOk) && BodyTyped(args)
             && !StringObject(Get(args, "query"))) ==> r == Failure(TypeError)
  {
    var headers := ReadHeaders(args, headersOk);
    if headers.Failure? {
      return Failure(headers.error);
    }
    var body := MapBody(Get(args, "body"));
    if body.Failure? {
      return Failure(body.error);
    }
    var query := ReadStringObject(Get(args, "query"));
    if query.Failure? {
      return Failure(query.error);
    }
    r := Success((headers.value, body.value, query.value));
  }

  /** The `headers` argument read as a string map and checked as a header map: a TypeError when
      it is not an object of strings, InvalidHeaders when the map is refused. */
  method ReadHeaders(args: seq<Prop>, headersOk: map<string, string> -> bool)
    returns (r: Result<map<string, string>, Error>)
    ensures r.Success? <==> HeadersAccepted(args, headersOk)
    ensures r.Success? ==> Mirrors(ObjectProps(Get(args, "headers")).value, r.value)
    ensures !StringObject(Get(args, "headers")) ==> r == Failure(TypeError)
    ensures r == Failure(InvalidHeaders) <==>
              StringObject(Get(args, "headers")) && !HeadersAccepted(args, headersOk)
  {
    r := ReadStringObject(Get(args, "headers"));
    if r.Success? {
      MirrorsUnique(ObjectProps(Get(args, "headers")).value, r.value);
      if !headersOk(r.value) {
        r := Failure(InvalidHeaders);
      }
    }
  }

  /** An object determines the string map that mirrors it. */
  lemma MirrorsUnique(o: seq<Prop>, m: map<string, string>)
    requires Mirrors(o, m)
    ensures forall m' :: Mirrors(o, m') ==> m' == m
  {
    forall m' | Mirrors(o, m') ensures m' == m {
      assert forall k :: k in m ==> Str(m[k]) == Str(m'[k]);
    }
  }

  // ------------------------------------------------------------- response -> payload

  /** What the engine hands back for a response: `text` is the body read as text, absent when
      reading or decoding it failed. */
  datatype Response = Response(
    status: nat, version: HttpVersion, headers: seq<(string, seq<byte>)>,
    contentLength: Option<nat>, text: Option<string>)

  /** `CallbackPayload`. */
  datatype Payload = Payload(
    status: nat, httpVersion: string, headers: seq<(string, string)>,
    contentLength: Option<nat>, data: Option<string>)

  /** The headers whose value reads as text, converted, in their original order. */
  function FilterHeaders(hs: seq<(string, seq<byte>)>): seq<(string, string)> {
    if hs == [] then []
    else if IsVisible(hs[0].1) then [(hs[0].0, ToStr(hs[0].1))] + FilterHeaders(hs[1..])
    else FilterHeaders(hs[1..])
  }

  /** Reference view of the filter: the input pairs it keeps, untouched. */
  function KeepVisible(hs: seq<(string, seq<byte>)>): (r: seq<(string, seq<byte>)>)
    ensures forall p :: p in r ==> p in hs && IsVisible(p.1)
  {
    if hs == [] then []
    else if IsVisible(hs[0].1) then [hs[0]] + KeepVisible(hs[1..])
    else KeepVisible(hs[1..])
  }

  /** The bytes of a list of text headers. */
  function EncodeValues(ps: seq<(string, string)>): seq<(string, seq<byte>)> {
    if ps == [] then [] else [(ps[0].0, Encode(ps[0].1))] + EncodeValues(ps[1..])
  }

  /** The filter loses nothing it keeps: re-encoding its output yields exactly the visible input
      headers, names and bytes, in their original order; the others are dropped, not reported. */
  lemma {:induction false} FilterHeadersFaithful(hs: seq<(string, seq<byte>)>)
    ensures EncodeValues(FilterHeaders(hs)) == KeepVisible(hs)
  {
    if hs != [] {
      FilterHeadersFaithful(hs[1..]);
      if IsVisible(hs[0].1) {
        ToStrEncode(hs[0].1);
        var f := FilterHeaders(hs[1..]);
        assert ([(hs[0].0, ToStr(hs[0].1))] + f)[1..] == f;
      }
    }
  }

  /** Filtering a concatenation filters each part: header order is preserved. */
  lemma {:induction false} FilterHeadersAppend(a: seq<(string, seq<byte>)>, b: seq<(string, seq<byte>)>)
    ensures FilterHeaders(a + b) == FilterHeaders(a) + FilterHeaders(b)
  {
    if a == [] {
      assert a + b == b;
    } else {
      assert (a + b)[1..] == a[1..] + b;
      FilterHeadersAppend(a[1..], b);
    }
  }

  /** `map_response`: an error passes through unchanged; a response is copied into a payload with
      the text-readable headers, the known length and the body text when it could be read. */
  function MapResponse<E>(res: Result<Response, E>): (r: Result<Payload, E>)
    ensures res.Failure? ==> r == Failure(res.error)
    ensures res.Success? ==>
              && r.Success?
              && r.value.status == res.value.status
              && r.value.httpVersion == VersionName(res.value.version)
              && r.value.contentLength == res.value.contentLength
              && r.value.data == res.value.text
              && EncodeValues(r.value.headers) == KeepVisible(res.value.headers)
  {
    match res
    case Failure(e) => Failure(e)
    case Success(resp) =>
      FilterHeadersFaithful(resp.headers);
      Success(Payload(resp.status, VersionName(resp.version), FilterHeaders(resp.headers),
                      resp.contentLength, resp.text))
  }

  // ------------------------------------------------------------- payload -> JS object

  /** The value of the last occurrence of header `k`, if any. */
  function LastValue(hs: seq<(string, string)>, k: string): Option<string> {
    if hs == [] then None
    else if hs[|hs| - 1].0 == k then Some(hs[|hs| - 1].1)
    else LastValue(hs[..|hs| - 1], k)
  }

  /** The header names present. */
  function Names(hs: seq<(string, string)>): set<string> {
    set p | p in hs :: p.0
  }

  function AsJs(v: Option<string>): JsValue {
    match v
    case None => Undefined
    case Some(s) => Str(s)
  }

  lemma LastValueSnoc(hs: seq<(string, string)>, i: nat, k: string)
    requires i < |hs|
    ensures LastValue(hs[..i + 1], k) == if k == hs[i].0 then Some(hs[i].1) else LastValue(hs[..i], k)
  {
    assert hs[..i + 1][..i] == hs[..i];
  }

  lemma NamesSnoc(hs: seq<(string, string)>, i: nat)
    requires i < |hs|
    ensures Names(hs[..i + 1]) == Names(hs[..i]) + {hs[i].0}
  {
    assert hs[..i + 1] == hs[..i] + [hs[i]];
  }

  /** The headers object of `build_ret`: one property per header name; a name that occurs more
      than once ends up with the value of its last occurrence. */
  method BuildHeaders(hs: seq<(string, string)>) returns (h: seq<Prop>)
    ensures DistinctKeys(h)
    ensures Keys(h) == Names(hs)
    ensures forall k :: Get(h, k) == AsJs(LastValue(hs, k))
  {
    h := [];
    var i := 0;
    while i < |hs|
      invariant 0 <= i <= |hs|
      invariant DistinctKeys(h)
      invariant Keys(h) == Names(hs[..i])
      invariant forall k :: Get(h, k) == AsJs(LastValue(hs[..i], k))
    {
      var (k, v) := hs[i];
      var h' := Assign(h, k, Str(v));
      forall k' ensures Get(h', k') == AsJs(LastValue(hs[..i + 1], k')) {
        LastValueSnoc(hs, i, k');
      }
      NamesSnoc(hs, i);
      h := h';
      i := i + 1;
    }
    assert hs[..|hs|] == hs;
  }

  /** `build_ret`: the JS object handed to the callback. `status`, `httpVersion` and `headers` are
      always present; `contentLength` and `data` only when the payload has them. */
  method BuildRet(p: Payload) returns (obj: JsValue)
    ensures obj.Object? && DistinctKeys(obj.props)
    ensures |obj.props| == 3 + (if p.contentLength.Some? then 1 else 0) + (if p.data.Some? then 1 else 0)
    ensures "contentLength" in Keys(obj.props) <==> p.contentLength.Some?
    ensures "data" in Keys(obj.props) <==> p.data.Some?
    ensures Get(obj.props, "status") == Number(p.status as real)
    ensures Get(obj.props, "httpVersion") == Str(p.httpVersion)
    ensures p.contentLength.Some? ==> Get(obj.props, "contentLength") == Number(p.contentLength.value as real)
    ensures p.data.Some? ==> Get(obj.props, "data") == Str(p.data.value)
    ensures Get(obj.props, "headers").Object?
    ensures forall k :: Get(Get(obj.props, "headers").props, k) == AsJs(LastValue(p.headers, k))
  {
    var h := BuildHeaders(p.headers);
    // Every `set` below is on a fresh object with a key not yet present, so each one appends.
    var o: seq<Prop> := [];
    if p.contentLength.Some? {
      o := o + [Prop("contentLength", Number(p.contentLength.value as real))];
    }
    var d: seq<Prop> := [];
    if p.data.Some? {
      d := [Prop("data", Str(p.data.value))];
    }
    var fixed := [Prop("status", Number(p.status as real)), Prop("httpVersion", Str(p.httpVersion)),
                  Prop("headers", Plain(h))];
    RetFacts(p, o, d, fixed, h);
    var o3 := o + d + fixed;
    obj := Object("Object", o3);
  }

  /** A single property. */
  lemma SingleFacts(k: string, v: JsValue)
    ensures Keys([Prop(k, v)]) == {k} && DistinctKeys([Prop(k, v)]) && Get([Prop(k, v)], k) == v
  {
    assert [Prop(k, v)][1..] == [];
  }

  /** The three properties `build_ret` always sets, read back. */
  lemma FixedFacts(a: JsValue, b: JsValue, c: JsValue, fixed: seq<Prop>)
    requires fixed == [Prop("status", a), Prop("httpVersion", b), Prop("headers", c)]
    ensures Keys(fixed) == {"status", "httpVersion", "headers"} && DistinctKeys(fixed)
    ensures Get(fixed, "status") == a && Get(fixed, "httpVersion") == b && Get(fixed, "headers") == c
  {
    var t := [Prop("httpVersion", b), Prop("headers", c)];
    assert fixed == [Prop("status", a)] + t;
    SingleFacts("headers", c);
    assert t == [Prop("httpVersion", b)] + [Prop("headers", c)];
    SingleFacts("httpVersion", b);
    GetAppend([Prop("httpVersion", b)], [Prop("headers", c)], "headers");
    DistinctAppend([Prop("httpVersion", b)], [Prop("headers", c)]);
    SingleFacts("status", a);
    GetAppend([Prop("status", a)], t, "headers");
    GetAppend([Prop("status", a)], t, "httpVersion");
    DistinctAppend([Prop("status", a)], t);
  }

  lemma RetFacts(p: Payload, o: seq<Prop>, d: seq<Prop>, fixed: seq<Prop>, h: seq<Prop>)
    requires o == if p.contentLength.Some? then [Prop("contentLength", Number(p.contentLength.value as real))] else []
    requires d == if p.data.Some? then [Prop("data", Str(p.data.value))] else []
    requires fixed == [Prop("status", Number(p.status as real)), Prop("httpVersion", Str(p.httpVersion)),
                       Prop("headers", Plain(h))]
    ensures DistinctKeys(o + d + fixed)
    ensures "contentLength" in Keys(o + d + fixed) <==> p.contentLength.Some?
    ensures "data" in Keys(o + d + fixed) <==> p.data.Some?
    ensures Get(o + d + fixed, "status") == Number(p.status as real)
    ensures Get(o + d + fixed, "httpVersion") == Str(p.httpVersion)
    ensures Get(o + d + fixed, "headers") == Plain(h)
    ensures p.contentLength.Some? ==> Get(o + d + fixed, "contentLength") == Number(p.contentLength.value as real)
    ensures p.data.Some? ==> Get(o + d + fixed, "data") == Str(p.data.value)
  {
    FixedFacts(Number(p.status as real), Str(p.httpVersion), Plain(h), fixed);
    if p.contentLength.Some? { SingleFacts("contentLength", Number(p.contentLength.value as real)); }
    if p.data.Some? { SingleFacts("data", Str(p.data.value)); }
    GetAppend(o, d, "data");
    GetAppend(o, d, "contentLength");
    DistinctAppend(o, d);
    DistinctAppend(o + d, fixed);
    GetAppend(o + d, fixed, "status");
    GetAppend(o + d, fixed, "httpVersion");
    GetAppend(o + d, fixed, "headers");
    GetAppend(o + d, fixed, "data");
    GetAppend(o + d, fixed, "contentLength");
  }
}

=== FILE: time_jar.dfy ===
/**
 * The time-indexed cookie store (`TimeJar`). Every response that sets
 * cookies is recorded under the instant it arrived; a request later asks for
 * everything recorded strictly after its own start instant. The store never
 * serves cookies for outgoing requests.
 *
 * The ordered map of the source is a list of entries with strictly
 * increasing instants; the reader/writer lock is modelled by its one
 * observable effect in sequential code, poisoning: a panic while the write
 * lock is held makes every later `unwrap` of the lock panic too.
 */
module TimeJars {
  import opened Wrappers
  import opened Http

  /** A reading of the monotonic clock. */
  type Instant = nat

  /** What one response contributed: its origin and its raw `Set-Cookie` values, in header order. */
  datatype NewCookies = NewCookies(origin: string, cookies: seq<string>)

  datatype Entry = Entry(at: Instant, value: NewCookies)

  /** Ordered-map invariant: instants strictly increase along the list. */
  ghost predicate Sorted(es: seq<Entry>) {
    forall i, j :: 0 <= i < j < |es| ==> es[i].at < es[j].at
  }

  /** The instants present in the map. */
  function Instants(es: seq<Entry>): set<Instant> {
    set e | e in es :: e.at
  }

  /** The value stored under `t`, if any. */
  function Lookup(es: seq<Entry>, t: Instant): Option<NewCookies> {
    if es == [] then None
    else if es[0].at == t then Some(es[0].value)
    else Lookup(es[1..], t)
  }

  /** Map insertion: a new instant is placed in order; an instant already present has its value replaced. */
  function Insert(es: seq<Entry>, t: Instant, v: NewCookies): seq<Entry> {
    if es == [] then [Entry(t, v)]
    else if t < es[0].at then [Entry(t, v)] + es
    else if t == es[0].at then [Entry(t, v)] + es[1..]
    else [es[0]] + Insert(es[1..], t, v)
  }

  /** An entry placed before an ordered map whose instants all follow it keeps the map ordered. */
  lemma SortedCons(x: Entry, es: seq<Entry>)
    requires Sorted(es)
    requires forall e :: e in es ==> x.at < e.at
    ensures Sorted([x] + es)
  {
    var r := [x] + es;
    forall i, j | 0 <= i < j < |r| ensures r[i].at < r[j].at {
      assert r[j] == es[j - 1];
      if i > 0 {
        assert r[i] == es[i - 1];
      }
    }
  }

  /** Insertion brings in no entry other than the new one. */
  lemma {:induction false} InsertFrom(es: seq<Entry>, t: Instant, v: NewCookies)
    ensures forall e :: e in Insert(es, t, v) ==> e.at == t || e in es
  {
    if es != [] && t > es[0].at {
      InsertFrom(es[1..], t, v);
      assert Insert(es, t, v) == [es[0]] + Insert(es[1..], t, v);
    }
  }

  /** Insertion keeps the map ordered and brings in no entry other than the new one. */
  lemma {:induction false} InsertSorted(es: seq<Entry>, t: Instant, v: NewCookies)
    requires Sorted(es)
    ensures Sorted(Insert(es, t, v))
    ensures forall e :: e in Insert(es, t, v) ==> e.at == t || e in es
  {
    InsertFrom(es, t, v);
    if es == [] {
    } else if t < es[0].at {
      forall e | e in es ensures t < e.at {
        var m :| 0 <= m < |es| && es[m] == e;
      }
      SortedCons(Entry(t, v), es);
    } else if t == es[0].at {
      forall e | e in es[1..] ensures t < e.at {
        var m :| 0 <= m < |es[1..]| && es[1..][m] == e;
        assert es[m + 1] == e;
      }
      SortedCons(Entry(t, v), es[1..]);
    } else {
      var rest := Insert(es[1..], t, v);
      InsertSorted(es[1..], t, v);
      forall e | e in rest ensures es[0].at < e.at {
        if e.at != t {
          var m :| 0 <= m < |es[1..]| && es[1..][m] == e;
          assert es[m + 1] == e;
        }
      }
      SortedCons(es[0], rest);
    }
  }

  /** Insertion stores `v` under `t`, leaves every other instant's value alone, and grows the map
      by one exactly when `t` was new. */
  lemma {:induction false} InsertLookup(es: seq<Entry>, t: Instant, v: NewCookies, u: Instant)
    requires Sorted(es)
    ensures Lookup(Insert(es, t, v), u) == if u == t then Some(v) else Lookup(es, u)
    ensures |Insert(es, t, v)| == if t in Instants(es) then |es| else |es| + 1
  {
    if es == [] {
    } else if t > es[0].at {
      InsertLookup(es[1..], t, v, u);
      assert Instants(es) == {es[0].at} + Instants(es[1..]) by {
        assert forall e :: e in es <==> e == es[0] || e in es[1..];
      }
    } else if t < es[0].at {
      assert t !in Instants(es);
    } else {
      assert t in Instants(es) by { assert es[0] in es; }
    }
  }

  /** With a clock that has moved past every recorded instant, recording appends at the end. */
  lemma InsertLatest(es: seq<Entry>, t: Instant, v: NewCookies)
    requires Sorted(es)
    requires forall e :: e in es ==> e.at < t
    ensures Insert(es, t, v) == es + [Entry(t, v)]
  {
    if es != [] {
      assert es[0] in es;
      InsertLatest(es[1..], t, v);
      assert es == [es[0]] + es[1..];
    }
  }

  /** The entries strictly after `t`, in map order: the range `(Excluded(t), Unbounded)`. */
  function After(es: seq<Entry>, t: Instant): seq<Entry> {
    if es == [] then []
    else if es[0].at > t then [es[0]] + After(es[1..], t)
    else After(es[1..], t)
  }

  /** The range holds exactly the entries whose instant is strictly later than `t`;
      an entry recorded at `t` itself is excluded. */
  lemma {:induction false} AfterExactly(es: seq<Entry>, t: Instant, e: Entry)
    ensures e in After(es, t) <==> e in es && e.at > t
  {
    if es != [] {
      AfterExactly(es[1..], t, e);
      assert e in es <==> e == es[0] || e in es[1..];
    }
  }

  /** The range comes back in chronological order. */
  lemma {:induction false} AfterChronological(es: seq<Entry>, t: Instant)
    requires Sorted(es)
    ensures Sorted(After(es, t))
  {
    if es != [] {
      AfterChronological(es[1..], t);
      if es[0].at > t {
        var rest := After(es[1..], t);
        forall e | e in rest ensures es[0].at < e.at {
          AfterExactly(es[1..], t, e);
        }
      }
    }
  }

  /** In a sorted map the range is a suffix: everything from the first instant after `t` on. */
  lemma {:induction false} AfterSuffix(es: seq<Entry>, t: Instant, k: nat)
    requires Sorted(es) && k <= |es|
    requires forall i :: 0 <= i < k ==> es[i].at <= t
    requires k < |es| ==> es[k].at > t
    ensures After(es, t) == es[k..]
  {
    if es != [] {
      if k == 0 {
        AfterSuffix(es[1..], t, 0);
      } else {
        AfterSuffix(es[1..], t, k - 1);
      }
    }
  }

  /** Recording at a later instant than `t` adds exactly that record to the end of what a
      request that started at `t` observes. */
  lemma RecordObserved(es: seq<Entry>, t: Instant, now: Instant, v: NewCookies)
    requires Sorted(es)
    requires forall e :: e in es ==> e.at < now
    requires t < now
    ensures After(Insert(es, now, v), t) == After(es, t) + [Entry(now, v)]
  {
    InsertLatest(es, now, v);
    AfterAppend(es, t, Entry(now, v));
  }

  lemma {:induction false} AfterAppend(es: seq<Entry>, t: Instant, e: Entry)
    requires e.at > t
    ensures After(es + [e], t) == After(es, t) + [e]
  {
    if es != [] {
      assert (es + [e])[1..] == es[1..] + [e];
      AfterAppend(es[1..], t, e);
    }
  }

  /** The cookie lists of some entries, in order. */
  function Values(es: seq<Entry>): (vs: seq<NewCookies>)
    ensures |vs| == |es| && forall i :: 0 <= i < |es| ==> vs[i] == es[i].value
  {
    seq(|es|, i requires 0 <= i < |es| => es[i].value)
  }

  /** Every header value converted to text. */
  function ToStrs(hs: seq<seq<byte>>): (ss: seq<string>)
    requires forall h :: h in hs ==> IsVisible(h)
    ensures |ss| == |hs| && forall i :: 0 <= i < |hs| ==> ss[i] == ToStr(hs[i])
  {
    seq(|hs|, i requires 0 <= i < |hs| => ToStr(hs[i]))
  }

  /** Collecting values distributes over concatenation. */
  lemma ValuesAppend(a: seq<Entry>, b: seq<Entry>)
    ensures Values(a + b) == Values(a) + Values(b)
  {
  }

  /** A caller that reads the cookies since `t` again after a response arrived at `now > t` sees
      what it saw before, followed by that response's cookies. */
  lemma NewResponseSeen(es: seq<Entry>, t: Instant, now: Instant, v: NewCookies)
    requires Sorted(es)
    requires forall e :: e in es ==> e.at < now
    requires t < now
    ensures Values(After(Insert(es, now, v), t)) == Values(After(es, t)) + [v]
  {
    RecordObserved(es, t, now, v);
    ValuesAppend(After(es, t), [Entry(now, v)]);
  }

  /** The text kept for each header is lossless: encoding it again gives the header's bytes. */
  lemma ToStrsRoundTrip(hs: seq<seq<byte>>)
    requires forall h :: h in hs ==> IsVisible(h)
    ensures forall i :: 0 <= i < |hs| ==> Encode(ToStrs(hs)[i]) == hs[i]
  {
    forall i | 0 <= i < |hs| ensures Encode(ToStrs(hs)[i]) == hs[i] {
      ToStrEncode(hs[i]);
    }
  }

  /** The store never supplies a `Cookie` header for an outgoing request, whatever the URL. */
  function ServeCookies(url: string): (header: Option<seq<byte>>)
    ensures header.None?
  {
    None
  }

  class TimeJar {
    var entries: seq<Entry>
    /** Whether a writer panicked while holding the lock. */
    var poisoned: bool

    ghost predicate Valid()
      reads this
    {
      Sorted(entries)
    }

    /** `TimeJar::default()`: an empty map behind a fresh lock. */
    constructor ()
      ensures Valid() && entries == [] && !poisoned
    {
      entries := [];
      poisoned := false;
    }

    /** `cookies_since`: the cookie lists recorded strictly after `t`, oldest first.
        `None` is the panic of unwrapping a poisoned lock. The store is only read. */
    method CookiesSince(t: Instant) returns (r: Option<seq<NewCookies>>)
      requires Valid()
      ensures r.None? <==> poisoned
      ensures r.Some? ==> r.value == Values(After(entries, t))
    {
      if poisoned {
        return None;
      }
      // Seek the start of the range: the first instant later than `t`.
      var i := 0;
      while i < |entries| && entries[i].at <= t
        invariant 0 <= i <= |entries|
        invariant forall j :: 0 <= j < i ==> entries[j].at <= t
      {
        i := i + 1;
      }
      AfterSuffix(entries, t, i);
      var cookies := [];
      var j := i;
      while j < |entries|
        invariant i <= j <= |entries|
        invariant |cookies| == j - i
        invariant forall m :: 0 <= m < |cookies| ==> cookies[m] == entries[i + m].value
      {
        cookies := cookies + [entries[j].value];
        j := j + 1;
      }
      r := Some(cookies);
    }

    /** `set_cookies`: records the response's origin and cookie values under the instant `now`.
        It panics, recording nothing and poisoning the lock, when the lock is already poisoned or
        when some value is not visible ASCII; `ok` is false exactly then. */
    method SetCookies(headers: seq<seq<byte>>, origin: string, now: Instant) returns (ok: bool)
      requires Valid()
      modifies this
      ensures Valid()
      ensures ok <==> !old(poisoned) && forall h :: h in headers ==> IsVisible(h)
      ensures ok ==> !poisoned && entries == Insert(old(entries), now, NewCookies(origin, ToStrs(headers)))
      ensures !ok ==> poisoned && entries == old(entries)
    {
      if poisoned {
        return false;
      }
      if exists h :: h in headers && !IsVisible(h) {
        poisoned := true;
        return false;
      }
      InsertSorted(entries, now, NewCookies(origin, ToStrs(headers)));
      entries := Insert(entries, now, NewCookies(origin, ToStrs(headers)));
      ok := true;
    }
  }
}

=== FILE: ts_client.dfy ===
/**
 * The TypeScript `Client` wrapper. Its constructor turns an options object
 * into a fixed sequence of native builder calls; `request` merges defaults,
 * the cookie jar's `Cookie` header and a multipart form's headers and body
 * into the arguments handed to the native request, and afterwards writes the
 * cookies the response reports back into the caller's cookie jar.
 *
 * The cookie jar and the multipart form are other libraries: what they
 * return is passed in (`jarCookie`, `formHeaders`, `formBuffer`), and the
 * jar is a log of the `setCookieSync` calls it receives.
 */
module TsClient {
  import opened Wrappers
  import opened Js
  import NativeClient

  // ------------------------------------------------------------- constructor

  /** `ClientOptions`: each field `Undefined` when the caller leaves it out. */
  datatype ClientOptions = ClientOptions(
    connectTimeout: JsValue,
    requestTimeout: JsValue,
    redirectLimit: JsValue,
    httpsOnly: JsValue,
    stripSensitiveHeaders: JsValue,
    https2AdaptiveWindow: JsValue,
    proxy: JsValue,
    logLevel: JsValue)

  /** One call on the native builder, with the JS value passed to it. */
  datatype BuilderCall =
    | ConnectTimeout(arg: JsValue)
    | RequestTimeout(arg: JsValue)
    | RedirectLimit(arg: JsValue)
    | HttpsOnly(arg: JsValue)
    | StripSensitiveHeaders(arg: JsValue)
    | Https2AdaptiveWindow(arg: JsValue)
    | Proxy(arg: JsValue)
    | LogLevel(arg: JsValue)
    | Build

  /** The position of each kind of call in the constructor. */
  function Rank(c: BuilderCall): nat {
    match c
    case ConnectTimeout(_) => 0
    case RequestTimeout(_) => 1
    case RedirectLimit(_) => 2
    case HttpsOnly(_) => 3
    case StripSensitiveHeaders(_) => 4
    case Https2AdaptiveWindow(_) => 5
    case Proxy(_) => 6
    case LogLevel(_) => 7
    case Build => 8
  }

  /** `LogLevel.Info`. */
  const InfoLevel: JsValue := Number(3.0)

  /** The call of rank `k` the constructor can make, with the value it would forward: the option
      itself, or for the log level the option defaulting to Info when absent or null. */
  function Candidate(o: ClientOptions, k: nat): (c: BuilderCall)
    requires k < 9
    ensures Rank(c) == k
  {
    if k == 0 then ConnectTimeout(o.connectTimeout)
    else if k == 1 then RequestTimeout(o.requestTimeout)
    else if k == 2 then RedirectLimit(o.redirectLimit)
    else if k == 3 then HttpsOnly(o.httpsOnly)
    else if k == 4 then StripSensitiveHeaders(o.stripSensitiveHeaders)
    else if k == 5 then Https2AdaptiveWindow(o.https2AdaptiveWindow)
    else if k == 6 then Proxy(o.proxy)
    else if k == 7 then LogLevel(Coalesce(o.logLevel, InfoLevel))
    else Build
  }

  /** Whether the constructor makes a call: optional settings only when truthy (so 0, false and ""
      are skipped), except the redirect limit, which is made whenever it is not `undefined`, 0
      included; the log level and `build` always. */
  predicate Gate(c: BuilderCall) {
    match c
    case RedirectLimit(v) => v != Undefined
    case LogLevel(_) => true
    case Build => true
    case _ => Truthy(c.arg)
  }

  /** The calls made among the first `k` candidates: those whose gate is open, in rank order. */
  function Planned(o: ClientOptions, k: nat): seq<BuilderCall>
    requires k <= 9
  {
    if k == 0 then []
    else Planned(o, k - 1) + (if Gate(Candidate(o, k - 1)) then [Candidate(o, k - 1)] else [])
  }

  /** A call is made exactly when it is the candidate of its rank and its gate is open. */
  lemma {:induction false} PlannedMembers(o: ClientOptions, k: nat, x: BuilderCall)
    requires k <= 9
    ensures x in Planned(o, k) <==> Rank(x) < k && x == Candidate(o, Rank(x)) && Gate(x)
  {
    if k > 0 {
      PlannedMembers(o, k - 1, x);
    }
  }

  /** The calls come in rank order, each rank at most once. */
  lemma {:induction false} PlannedOrder(o: ClientOptions, k: nat)
    requires k <= 9
    ensures forall i, j :: 0 <= i < j < |Planned(o, k)| ==> Rank(Planned(o, k)[i]) < Rank(Planned(o, k)[j])
  {
    if k > 0 {
      PlannedOrder(o, k - 1);
      var p, q := Planned(o, k - 1), Planned(o, k);
      forall i, j | 0 <= i < j < |q| ensures Rank(q[i]) < Rank(q[j]) {
        if j >= |p| {
          assert q[i] in p;
          PlannedMembers(o, k - 1, q[i]);
        }
      }
    }
  }

  /** The constructor's calls: the options that pass their test, in the constructor's fixed order,
      each forwarding its own value, followed by the log level (Info when absent or null) and
      `build`. */
  lemma ConstructorCalls(o: ClientOptions)
    ensures var calls := Planned(o, 9);
      && (forall i, j :: 0 <= i < j < |calls| ==> Rank(calls[i]) < Rank(calls[j]))
      && |calls| >= 2 && calls[|calls| - 1] == Build
      && calls[|calls| - 2] == LogLevel(Coalesce(o.logLevel, InfoLevel))
      && (forall c :: c in calls && c != Build ==> c.arg == Forwarded(o, c))
      && (ConnectTimeout(o.connectTimeout) in calls <==> Truthy(o.connectTimeout))
      && (RequestTimeout(o.requestTimeout) in calls <==> Truthy(o.requestTimeout))
      && (RedirectLimit(o.redirectLimit) in calls <==> o.redirectLimit != Undefined)
      && (HttpsOnly(o.httpsOnly) in calls <==> Truthy(o.httpsOnly))
      && (StripSensitiveHeaders(o.stripSensitiveHeaders) in calls <==> Truthy(o.stripSensitiveHeaders))
      && (Https2AdaptiveWindow(o.https2AdaptiveWindow) in calls <==> Truthy(o.https2AdaptiveWindow))
      && (Proxy(o.proxy) in calls <==> Truthy(o.proxy))
  {
    PlannedOrder(o, 9);
    PlannedTail(o);
    PlannedForwards(o);
    PlannedGates(o);
  }

  /** The last two calls are the log level and `build`. */
  lemma PlannedTail(o: ClientOptions)
    ensures Planned(o, 9) == Planned(o, 7) + [LogLevel(Coalesce(o.logLevel, InfoLevel)), Build]
  {
    assert Planned(o, 8) == Planned(o, 7) + [LogLevel(Coalesce(o.logLevel, InfoLevel))];
  }

  /** Every call but `build` forwards its own option's value. */
  lemma PlannedForwards(o: ClientOptions)
    ensures forall c :: c in Planned(o, 9) && c != Build ==> c.arg == Forwarded(o, c)
  {
    forall c | c in Planned(o, 9) && c != Build ensures c.arg == Forwarded(o, c) {
      PlannedMembers(o, 9, c);
    }
  }

  /** Each optional setting is called exactly when its test passes. */
  lemma PlannedGates(o: ClientOptions)
    ensures ConnectTimeout(o.connectTimeout) in Planned(o, 9) <==> Truthy(o.connectTimeout)
    ensures RequestTimeout(o.requestTimeout) in Planned(o, 9) <==> Truthy(o.requestTimeout)
    ensures RedirectLimit(o.redirectLimit) in Planned(o, 9) <==> o.redirectLimit != Undefined
    ensures HttpsOnly(o.httpsOnly) in Planned(o, 9) <==> Truthy(o.httpsOnly)
    ensures StripSensitiveHeaders(o.stripSensitiveHeaders) in Planned(o, 9) <==> Truthy(o.stripSensitiveHeaders)
    ensures Https2AdaptiveWindow(o.https2AdaptiveWindow) in Planned(o, 9) <==> Truthy(o.https2AdaptiveWindow)
    ensures Proxy(o.proxy) in Planned(o, 9) <==> Truthy(o.proxy)
  {
    PlannedMembers(o, 9, ConnectTimeout(o.connectTimeout));
    PlannedMembers(o, 9, RequestTimeout(o.requestTimeout));
    PlannedMembers(o, 9, RedirectLimit(o.redirectLimit));
    PlannedMembers(o, 9, HttpsOnly(o.httpsOnly));
    PlannedMembers(o, 9, StripSensitiveHeaders(o.stripSensitiveHeaders));
    PlannedMembers(o, 9, Https2AdaptiveWindow(o.https2AdaptiveWindow));
    PlannedMembers(o, 9, Proxy(o.proxy));
  }

  /** The value the constructor forwards with a call. */
  function Forwarded(options: ClientOptions, c: BuilderCall): JsValue {
    match c
    case ConnectTimeout(_) => options.connectTimeout
    case RequestTimeout(_) => options.requestTimeout
    case RedirectLimit(_) => options.redirectLimit
    case HttpsOnly(_) => options.httpsOnly
    case StripSensitiveHeaders(_) => options.stripSensitiveHeaders
    case Https2AdaptiveWindow(_) => options.https2AdaptiveWindow
    case Proxy(_) => options.proxy
    case LogLevel(_) => Coalesce(options.logLevel, InfoLevel)
    case Build => Undefined
  }

  /** The `Client` constructor: the native builder calls it makes, in order, which are the
      candidate calls whose test passes (see `ConstructorCalls`). */
  method NewClient(options: ClientOptions) returns (calls: seq<BuilderCall>)
    ensures calls == Planned(options, 9)
  {
    calls := [];
    if Truthy(options.connectTimeout) {
      calls := calls + [ConnectTimeout(options.connectTimeout)];
    }
    assert calls == Planned(options, 1);
    if Truthy(options.requestTimeout) {
      calls := calls + [RequestTimeout(options.requestTimeout)];
    }
    assert calls == Planned(options, 2);
    // compared with `undefined`, so a limit of 0 is forwarded
    if options.redirectLimit != Undefined {
      calls := calls + [RedirectLimit(options.redirectLimit)];
    }
    assert calls == Planned(options, 3);
    if Truthy(options.httpsOnly) {
      calls := calls + [HttpsOnly(options.httpsOnly)];
    }
    assert calls == Planned(options, 4);
    if Truthy(options.stripSensitiveHeaders) {
      calls := calls + [StripSensitiveHeaders(options.stripSensitiveHeaders)];
    }
    assert calls == Planned(options, 5);
    if Truthy(options.https2AdaptiveWindow) {
      calls := calls + [Https2AdaptiveWindow(options.https2AdaptiveWindow)];
    }
    assert calls == Planned(options, 6);
    if Truthy(options.proxy) {
      calls := calls + [Proxy(options.proxy)];
    }
    assert calls == Planned(options, 7);
    calls := calls + [LogLevel(Coalesce(options.logLevel, InfoLevel))];
    calls := calls + [Build];
  }

  // ------------------------------------------------------------- request

  /** The defaults `request` starts from. */
  const Defaults: seq<Prop> := [Prop("method", Str("GET")), Prop("responseType", Str("text")),
                                Prop("attempts", Number(4.0))]

  lemma DefaultsFacts()
    ensures Keys(Defaults) == {"method", "responseType", "attempts"} && DistinctKeys(Defaults)
    ensures Get(Defaults, "method") == Str("GET")
    ensures Get(Defaults, "responseType") == Str("text")
    ensures Get(Defaults, "attempts") == Number(4.0)
    ensures Get(Defaults, "headers") == Undefined && Get(Defaults, "body") == Undefined
  {
    var t := [Prop("responseType", Str("text")), Prop("attempts", Number(4.0))];
    var u := [Prop("attempts", Number(4.0))];
    assert Defaults[1..] == t && t[1..] == u && u[1..] == [];
    assert Keys(u) == {"attempts"};
    assert Keys(t) == {"responseType", "attempts"};
  }

  /** The own properties a spread copies: those of an object, none of `undefined` or `null`. */
  function OwnProps(v: JsValue): seq<Prop> {
    if v.Object? then v.props else []
  }

  /** A JS value whose own keys are distinct (every real JS object). */
  ghost predicate WellFormed(v: JsValue) {
    v.Object? ==> DistinctKeys(v.props)
  }

  /** The body is a multipart form: `args.body?.constructor.name === 'FormData'`. */
  predicate IsFormData(v: JsValue) {
    v.Object? && v.ctor == "FormData"
  }

  /** `args.cookieJar` is set. */
  predicate HasJar(args: seq<Prop>) {
    Truthy(Get(args, "cookieJar"))
  }

  /** The arguments `request` hands to the native call (everything before the call). `jarCookie` is
      the jar's `getCookieStringSync(url)`; `formHeaders` is the form's `getHeaders` and `formBuffer`
      its `getBuffer()`. Every key other than the headers and the body is the caller's, or the
      default when the caller has none. With a jar the headers are the caller's plus the jar's
      `Cookie`; with a multipart body the form's headers (built from the caller's headers alone, so
      without the jar's `Cookie`) and buffer replace headers and body. */
  ghost predicate Prepared(args: seq<Prop>, jarCookie: string, formHeaders: JsValue -> JsValue, formBuffer: JsValue,
                           options: seq<Prop>)
  {
    && OthersFromArgs(args, options)
    && FormReplaces(args, formHeaders, formBuffer, options)
    && BodyKept(args, options)
    && JarCookieAdded(args, jarCookie, options)
    && HeadersKept(args, options)
  }

  /** Every key other than the headers and the body is the caller's, or the default. */
  ghost predicate OthersFromArgs(args: seq<Prop>, options: seq<Prop>) {
    forall k :: k != "headers" && k != "body" ==>
      Get(options, k) == if k in Keys(args) then Get(args, k) else Get(Defaults, k)
  }

  /** A multipart body: the form's headers and buffer replace headers and body. */
  ghost predicate FormReplaces(args: seq<Prop>, formHeaders: JsValue -> JsValue, formBuffer: JsValue,
                               options: seq<Prop>)
  {
    IsFormData(Get(args, "body")) ==>
      Get(options, "headers") == formHeaders(Get(args, "headers")) && Get(options, "body") == formBuffer
  }

  /** Any other body is the caller's. */
  ghost predicate BodyKept(args: seq<Prop>, options: seq<Prop>) {
    !IsFormData(Get(args, "body")) ==> Get(options, "body") == Get(args, "body")
  }

  /** With a jar and no multipart body: a fresh plain object of the caller's headers plus the jar's
      `Cookie`. */
  ghost predicate JarCookieAdded(args: seq<Prop>, jarCookie: string, options: seq<Prop>) {
    !IsFormData(Get(args, "body")) && HasJar(args) ==>
      var sent := Get(options, "headers");
      sent.Object? && sent.ctor == "Object"
      && forall k :: Get(sent.props, k) ==
                       if k == "Cookie" then Str(jarCookie) else Get(OwnProps(Get(args, "headers")), k)
  }

  /** Without a jar or a multipart body the headers are the caller's. */
  ghost predicate HeadersKept(args: seq<Prop>, options: seq<Prop>) {
    !IsFormData(Get(args, "body")) && !HasJar(args) ==> Get(options, "headers") == Get(args, "headers")
  }

  /** Builds the arguments for the native call, as `Prepared` describes them. */
  method RequestOptions(args: seq<Prop>, jarCookie: string, formHeaders: JsValue -> JsValue, formBuffer: JsValue)
    returns (options: seq<Prop>)
    requires DistinctKeys(args) && WellFormed(Get(args, "headers"))
    ensures OthersFromArgs(args, options)
    ensures FormReplaces(args, formHeaders, formBuffer, options)
    ensures BodyKept(args, options)
    ensures JarCookieAdded(args, jarCookie, options)
    ensures HeadersKept(args, options)
  {
    DefaultsFacts();
    options := SpreadCopy(Defaults, args);
    if HasJar(args) {
      var headers := SpreadCopy([], OwnProps(Get(args, "headers")));
      headers := Assign(headers, "Cookie", Str(jarCookie));
      options := Assign(options, "headers", Plain(headers));
    }
    if IsFormData(Get(args, "body")) {
      options := Assign(options, "headers", formHeaders(Get(args, "headers")));
      options := Assign(options, "body", formBuffer);
    }
  }

  /** The cookies a response reports, as `setCookieSync(cookie, origin)` calls in iteration order. */
  function Writes(newCookies: seq<(string, seq<string>)>): seq<(string, string)> {
    if newCookies == [] then []
    else Pairs(newCookies[0].1, newCookies[0].0) + Writes(newCookies[1..])
  }

  function Pairs(cookies: seq<string>, origin: string): (r: seq<(string, string)>)
    ensures |r| == |cookies| && forall i :: 0 <= i < |r| ==> r[i] == (cookies[i], origin)
  {
    seq(|cookies|, i requires 0 <= i < |cookies| => (cookies[i], origin))
  }

  lemma PairsSnoc(cookies: seq<string>, j: nat, origin: string)
    requires j < |cookies|
    ensures Pairs(cookies[..j + 1], origin) == Pairs(cookies[..j], origin) + [(cookies[j], origin)]
  {
  }

  lemma WritesSnoc(newCookies: seq<(string, seq<string>)>, i: nat)
    requires i < |newCookies|
    ensures Writes(newCookies[..i + 1]) == Writes(newCookies[..i]) + Pairs(newCookies[i].1, newCookies[i].0)
  {
    if i > 0 {
      WritesSnoc(newCookies[1..], i - 1);
      assert newCookies[..i + 1][1..] == newCookies[1..][..i];
      assert newCookies[..i][1..] == newCookies[1..][..i - 1];
    } else {
      assert newCookies[..1][1..] == [];
    }
  }

  /** Every cookie of every origin is written, and nothing else: the writes are exactly the
      (cookie, origin) pairs of the report. */
  lemma {:induction false} WritesExactly(newCookies: seq<(string, seq<string>)>, cookie: string, origin: string)
    ensures (cookie, origin) in Writes(newCookies) <==> exists e :: e in newCookies && e.0 == origin && cookie in e.1
  {
    if newCookies != [] {
      WritesExactly(newCookies[1..], cookie, origin);
      var e0 := newCookies[0];
      assert (cookie, origin) in Pairs(e0.1, e0.0) <==> e0.0 == origin && cookie in e0.1 by {
        if (cookie, origin) in Pairs(e0.1, e0.0) {
          var i :| 0 <= i < |e0.1| && Pairs(e0.1, e0.0)[i] == (cookie, origin);
        }
        if e0.0 == origin && cookie in e0.1 {
          var i :| 0 <= i < |e0.1| && e0.1[i] == cookie;
          assert Pairs(e0.1, e0.0)[i] == (cookie, origin);
        }
      }
      assert forall e :: e in newCookies <==> e == e0 || e in newCookies[1..];
    }
  }

  /** The caller's cookie jar: the cookies written into it, with the URL each was written for. */
  class CookieJar {
    var written: seq<(string, string)>

    constructor ()
      ensures written == []
    {
      written := [];
    }

    /** `setCookieSync(cookie, url)`. */
    method SetCookieSync(cookie: string, url: string)
      modifies this
      ensures written == old(written) + [(cookie, url)]
    {
      written := written + [(cookie, url)];
    }
  }

  /** The write-back after a successful call: every reported cookie, in iteration order, is set in
      the jar under the origin it was reported for. */
  method WriteBack(jar: CookieJar, entries: seq<(string, seq<string>)>)
    modifies jar
    ensures jar.written == old(jar.written) + Writes(entries)
  {
    var i := 0;
    while i < |entries|
      invariant 0 <= i <= |entries|
      invariant jar.written == old(jar.written) + Writes(entries[..i])
    {
      var (origin, cookies) := entries[i];
      var j := 0;
      while j < |cookies|
        invariant 0 <= j <= |cookies|
        invariant jar.written == old(jar.written) + Writes(entries[..i]) + Pairs(cookies[..j], origin)
      {
        jar.SetCookieSync(cookies[j], origin);
        PairsSnoc(cookies, j, origin);
        j := j + 1;
      }
      assert cookies[..j] == cookies;
      WritesSnoc(entries, i);
      i := i + 1;
    }
    assert entries[..i] == entries;
  }

  /** `Client.request`: builds the arguments, makes the native call and, when a jar was given,
      writes every reported cookie into it. `jar` is the object `args.cookieJar` refers to;
      `response` is the native call's outcome: the reported `newCookies` entries in iteration
      order, or `None` when the call rejects (the rejection propagates and nothing is written). */
  method Request(args: seq<Prop>, jar: CookieJar?, jarCookie: string,
                 formHeaders: JsValue -> JsValue, formBuffer: JsValue,
                 response: Option<seq<(string, seq<string>)>>)
    returns (options: seq<Prop>, ok: bool)
    requires DistinctKeys(args) && WellFormed(Get(args, "headers"))
    requires jar != null <==> HasJar(args)
    modifies jar
    ensures Prepared(args, jarCookie, formHeaders, formBuffer, options)
    ensures ok <==> response.Some?
    ensures jar != null && ok ==> jar.written == old(jar.written) + Writes(response.value)
    ensures jar != null && !ok ==> jar.written == old(jar.written)
  {
    options := RequestOptions(args, jarCookie, formHeaders, formBuffer);
    if response.None? {
      return options, false;
    }
    ok := true;
    if jar != null {
      WriteBack(jar, response.value);
    }
  }

  // ------------------------------------------------------------- against the native request

  /** The arguments built here carry a `query` only when the caller supplied one, and the native
      request of this model demands a `query` object: without one the request always throws there. */
  lemma NoQueryRejected(url: string, args: seq<Prop>, options: seq<Prop>,
                        methodOk: string -> bool, headersOk: map<string, string> -> bool)
    requires "query" !in Keys(args)
    requires forall k :: k != "headers" && k != "body" ==>
               Get(options, k) == if k in Keys(args) then Get(args, k) else Get(Defaults, k)
    ensures !NativeClient.Acceptable(Str(url), Plain(options), Function, methodOk, headersOk)
  {
    DefaultsFacts();
    assert Get(options, "query") == Undefined;
  }
}

=== FILE: wrappers.dfy ===
/** Optional values and results shared by every module of the model. */
module Wrappers {

  /** A value that may be absent (Rust's `Option`, a JS `undefined`). */
  datatype Option<+T> = None | Some(value: T)

  /** The outcome of an operation that can fail (Rust's `Result`, a thrown JS exception). */
  datatype Result<+T, +E> = Success(value: T) | Failure(error: E)
}
